=== FILE: README.md ===
# Tender listing scraper and sheet normaliser — a Dafny model

The repository holds two Python scripts that share one spreadsheet.

`app.py` searches a public-procurement portal for security and surveillance
tenders. It pairs every search keyword with every region of interest. For
each result item it applies a series of gates:

- the item must have a detail-link anchor and an `h2` heading;
- the link must not already be in the seen set: the links accepted earlier in
  this run, plus whatever column H held when it was read;
- no exclusion word may occur in the lower-cased object text;
- after the detail page is read, the region parsed from the item's location
  span must equal the query's region.

A surviving item becomes a nine-column row appended to the sheet, and its
link joins the seen set. Before the search, the rows below the header are
cleared. The seen set is then seeded from column H. Because the read comes
after the clear, column H holds only its header cell by then, and the seed is
that cell alone (`Listing.SeedAfterClear`). So in practice the duplicate gate
only catches links repeated within one run.

`processador.py` rewrites two columns of that sheet. Each object description
becomes the title-cased form of the first canonical phrase it contains,
compared after lower-casing and accent stripping. When no phrase occurs, the
text stays as it was. Each organisation name loses a leading boilerplate
prefix such as "Prefeitura Municipal de" and is title-cased. Both columns are
written back as one vertical A1 range each.

The model has these modules:

- `Common`: `Option` and first/last-match search.
- `Text`: Python's `lower`, `title`, `strip`, `startswith`, `in` and
  `rsplit(sep, 1)` on strings.
- `Accents`: `strip_accents`, that is NFD followed by dropping non-ASCII.
- `Ranges`: A1 range strings and reading them back.
- `Config`: the constant lists of both scripts.
- `Planner`: query enumeration.
- `Listing`: the gates, the span parsing and the run as a fold over queries
  and items. The fold threads the seen set, the counter, the appended rows
  and the detail pages opened.
- `Normalizer`: phrase matching and organisation cleanup.
- `Sheet`: the rewrite pass of `processador.py` over the sheet grid.

Browser pages, the detail-page scrape, the clock and the spreadsheet reads
are parameters:

- a search result is a `Page` of already-parsed `Item`s, or a no-results or
  failed page;
- `detail` maps a link to the deadline text;
- `today` is the date string;
- `column` is the read of column H, or `None` when that read failed;
- the sheet for `processador.py` is its grid of cell texts.

### Behaviour of the scripts worth knowing

- The exclusion test lower-cases the object text but does not strip accents.
  "Construcao" is excluded through `construcao`, while "Construção" passes.
  That is why both `cartao` and `cartão` are listed.
  `Listing.AccentedObjectNotExcluded` proves both facts.
- Re-running `processador.py` on its own output leaves the object column as
  it is (`Sheet.ObjectColumnSettles`). It is not idempotent for organisation
  names:
  - "Prefeitura Municipal de Municipio de Santos" cleans to
    "Municipio De Santos";
  - cleaning that again gives "Santos";
  - `Normalizer.CleanOrgNotIdempotent` proves both steps.

  `Sheet.OrgColumnSettles` states the condition under which the column does
  settle.
- Neither script aggregates item values or paginates.
- The seen set is seeded with `col_values(8)[LINHA_CABECALHO - 1:]`. This
  starts at the header cell, so the header text of column H is itself a
  "seen link". It is modelled as written (`Listing.SeedLinks`).

## Model

| member | source | states |
|---|---|---|
| Planner.Queries | app.py:145-146 | the plan has \|keywords\|·\|regions\| queries and the query at position i·\|regions\|+j is (keyword i, region j): keyword-major, region-minor |
| Planner.QueriesCover | app.py:145-146 | a (keyword, region) pair is queried if and only if the keyword and the region are both configured |
| Planner.QueriesDistinct | app.py:145-146 | with no repeated keyword or region, no query is visited twice |
| Planner.ConfiguredListsDistinct | app.py:16-24 | the configured keywords and regions have no repeats |
| Planner.ConfiguredPlan | app.py:16-24 | the configured plan is 40 distinct queries, from vigilancia/SP through seguranca/SP at position 8 to monitoramento/DF last |
| Text.FindLast | app.py:200 | the result is an occurrence of the separator with no occurrence further right, and None exactly when there is none |
| Text.RSplitOnce | app.py:200 | one part (the text itself) exactly when the separator is absent; otherwise two parts that re-join with the separator to the text, split at the right-most occurrence: the left part ends where the last separator starts, and no separator starts further right |
| Listing.ReadSpansIsLastWins | app.py:193-202 | the overwriting span loop yields the last date span's text, the organisation of the last location span, and the region of the last location span that has a separator, each "N/A" when there is none |
| Listing.LocationSplit | app.py:198-202 | when the last location span has " - ", organisation + " - " + region is its text, split at its last " - ", and the region holds no " - "; when no location span has one, the region stays "N/A" |
| Listing.Cells | app.py:211 | a row is nine cells, with status first, region fourth and link eighth (column H) |
| Listing.AccentedObjectNotExcluded | app.py:185-188 | "Construcao" is excluded, but "Construção" passes the exclusion test, which folds case and not accents |
| Listing.Judge | app.py:177-211 | each gate's verdict holds exactly under its condition, in source order: missing tag, missing href, already seen, excluded word in the lower-cased object, region mismatch; a duplicate, excluded or region-mismatched verdict carries the item's portal link, and a mismatch the parsed region; an accepted row carries "Aberto", the parsed date, the detail text, the query region, the parsed organisation, the heading's number ("N/A" without one), the object, the link, which begins with the portal address, and today |
| Listing.AcceptedIffWanted | app.py:180-206 | an item is accepted exactly when it has a link, passes the exclusion and region gates, and its link is not yet seen |
| Listing.SkippedItemNoEffect | app.py:177-188 | an item stopped before the detail visit changes nothing: no row, counter step, seen link or visit |
| Listing.ApplyGrows | app.py:208-214 | one item's effect only appends, counts each new row once, and adds a link that was unseen before and is seen after |
| Listing.GrowsTrans | app.py:208-214 | these growth guarantees compose across successive items and queries |
| Listing.RunItems | app.py:176-215 | the item loop preserves the growth invariant; every row it appends is open, in the query's region and links into the portal; the links it appends are exactly those of the items reached before one without an href that pass the exclusion and region gates, less the links seen before the loop |
| Listing.RunQuery | app.py:149-171 | a no-results page or a failed query leaves the state as it was; a result page runs the item loop, so the links appended are the page's gate-passing links not seen before |
| Listing.RunQueries | app.py:145-146 | the loop over queries preserves the growth invariant; every new row is open, in the region of some visited query and links into the portal; the links appended are exactly the gate-passing links of every query's result page, less those seen before |
| Listing.SeedLinks | app.py:119-125 | a text is in the seed if and only if the column was read and holds it at the header row or below; the seed is empty when the column read failed |
| Listing.SeedAfterClear | app.py:108-122 | read after the clear, column H holds only its header cell, so the seed is exactly that cell |
| Listing.SeedReadsBackLinks | app.py:121 | if column H were read with rows below the header, the seed would be their links plus the header cell; `main` never reads it after appending, since it reads only once, right after the clear |
| Listing.RunOutcome | app.py:182-214 | over a whole run: a link is appended exactly when some query's result page holds an item that reaches and passes every gate with it and the link is not in the seed; no link is appended twice; the counter equals the rows appended; the final seen set is the seed plus the new links; every row is open, in a configured region, and links into the portal |
| Listing.AcceptedThenDuplicate | app.py:183 | once a listing is accepted, meeting it again in any query is a duplicate |
| Listing.RepeatedItemOnce | app.py:176-214 | the same listing twice on one page gives one row, one counter step and one detail visit |
| Listing.ClearRange | app.py:108-111 | a range is cleared exactly when the sheet has rows below the header; it covers columns A–I of every row below the header up to row_count, and never the header row |
| Listing.ClearRangeText | app.py:111 | the cleared range is written "A2:I" followed by row_count |
| Accents.StripAccents | processador.py:35-44 | the result is pure ASCII, and ASCII text comes back unchanged |
| Accents.AsciiFixed | processador.py:41-43 | decomposing then dropping non-ASCII is the identity on ASCII text |
| Accents.StripAccentsCons | processador.py:41-43 | stripping works one character at a time: the first character contributes exactly its folded form |
| Accents.StripAccentsLatin | processador.py:41-43 | on ASCII and Latin-1 letters, stripping keeps the length and maps every character to its base letter |
| Text.Lower | app.py:186 | lower-casing keeps the length and leaves no capital: each capital becomes the small letter whose capital it is, and every other character is kept |
| Text.LowerIdempotent | processador.py:48 | lower-casing twice is lower-casing once |
| Text.Title | processador.py:52 | title-casing keeps the length and each letter's identity; a letter starting a word is not lower case, any other letter is not upper case, and uncased characters are unchanged |
| Text.OrdinalContinuesWord | processador.py:67-68 | a letter right after º continues the word and stays lower case ("1ºbpm"), while one after a blank is capitalised ("1 Bpm") |
| Text.TitleMatchesScan | processador.py:52 | the positional definition of title-casing agrees with CPython's scanning loop that carries a "previous character was cased" flag |
| Text.TitleIdempotent | processador.py:67-68 | title-casing twice is title-casing once |
| Text.LowerOfTitle | processador.py:48 | lower-casing forgets an earlier title-casing |
| Text.Strip | processador.py:67 | the result is a slice of the text with only whitespace cut from both ends, and starts and ends with non-whitespace |
| Normalizer.Normalize | processador.py:48 | the normalised text is pure ASCII and holds no capital; ASCII text is only lower-cased; text whose lower-cased characters are ASCII or precomposed Latin-1 letters keeps its length, each character becoming the base letter of its small form |
| Normalizer.FindPhrase | processador.py:46-53 | None exactly when no phrase occurs in the normalised text; otherwise the title-cased form of the first listed phrase that occurs |
| Normalizer.FirstListedWins | processador.py:50-52 | list order decides, not length: of two occurring phrases the earlier one wins |
| Normalizer.FindPhraseHead | processador.py:50-52 | the first listed phrase wins as soon as it occurs |
| Normalizer.FindPhraseFixedPoint | processador.py:46-53 | for lower-case ASCII phrases none of which occurs in a later one, the search applied to its own result returns that result |
| Normalizer.ConfiguredPhrasesWellFormed | processador.py:8-12 | the configured phrases are lower-case ASCII and none occurs in a phrase listed after it |
| Normalizer.ArmedSurveillanceChoice | processador.py:8-12 | "servico de vigilancia armada" maps to "Vigilancia Armada" with the configured order, and to "Vigilancia" when "vigilancia" is listed first |
| Normalizer.ArmedSurveillanceExample | processador.py:46-53 | the cell "Serviço de Vigilância Armada" becomes "Vigilancia Armada" |
| Normalizer.ObjectCell | processador.py:93-95 | the cell becomes the found phrase whenever one occurs, and keeps its text when none does; a changed cell holds the title-cased form of a configured phrase |
| Normalizer.ConfiguredPhrasesNonEmpty | processador.py:8-12 | no configured phrase title-cases to the empty string, so the truth test on the found phrase always passes |
| Normalizer.ObjectCellIdempotent | processador.py:93-95 | mapping an object cell twice is mapping it once |
| Normalizer.CleanOrg | processador.py:60-68 | with the first listed prefix the lower-cased name starts with, the result is the rest of the name stripped and title-cased; with none, the title-cased name |
| Normalizer.CleanOrgFixedPoint | processador.py:64-68 | a cleaned name that starts with no listed prefix is left alone by a second cleaning |
| Normalizer.CityHallExample | processador.py:60-67 | "Prefeitura Municipal de Santos" becomes "Santos" |
| Normalizer.UnlistedPrefixExample | processador.py:64-68 | "Fundação Municipal de Santos" has no listed prefix and is only title-cased |
| Normalizer.CleanOrgNotIdempotent | processador.py:64-67 | cleaning "Prefeitura Municipal de Municipio de Santos" gives "Municipio De Santos", and cleaning that again gives "Santos" |
| Ranges.ParseDecimalOfDecimal | processador.py:103 | a row number written in decimal reads back as the same number |
| Ranges.RenderParse | processador.py:103 | an A1 range with single-letter columns reads back as the same range |
| Sheet.ColumnOf | processador.py:83-84 | `index` finds the first column holding the title, and fails exactly when the header lacks it |
| Sheet.Process | processador.py:76-100 | nothing to process exactly when there is no row below the header; a missing header title stops the pass, the object title being looked up first; a rewrite writes to the first header column holding each title, one value per data row, each the mapped object or cleaned organisation of that row's cell; a data row too short for either column stops the pass, and with every row long enough the pass rewrites |
| Sheet.CompleteRewrites | processador.py:77-100 | a sheet with a data row, both titles in the header and no data row narrower than the header is always rewritten, with one value per data row in each column |
| Sheet.ColumnsDiffer | processador.py:83-84 | the two looked-up columns are different columns |
| Sheet.RewriteColumns | processador.py:91-111 | the first data row too short for a looked-up cell aborts the pass and is reported; otherwise each column gets one mapped value per data row, written to its own column from the row below the header down |
| Sheet.Apply | processador.py:105 | an update sets exactly the cells its range covers, top to bottom, and keeps every other cell |
| Sheet.RewriteFits | processador.py:102-111 | both writes of a pass fit the sheet: one column, one cell per data row, inside every row |
| Sheet.ApplyTwo | processador.py:102-111 | two writes to different columns set both columns and keep every other cell |
| Sheet.RewrittenCells | processador.py:91-111 | after both updates the header and every other column are unchanged, and each data row holds its mapped object and its cleaned organisation |
| Sheet.RewrittenHeader | processador.py:82-84 | a second pass over the output finds the same two columns |
| Sheet.SecondPassObjects | processador.py:91-105 | with an idempotent object map, a second pass rewrites the object column with the values it already holds |
| Sheet.SecondPassOrgs | processador.py:97-111 | when the organisation map fixes every written cell, a second pass rewrites that column with its current values |
| Sheet.ObjectColumnSettles | processador.py:91-105 | re-running the pass on its own output writes the same object column |
| Sheet.OrgColumnSettles | processador.py:97-111 | re-running the pass writes the same organisation column when no cleaned name starts with a listed prefix |
| Sheet.ColumnRangeText | processador.py:103 | the range of n values in column A–Z is "<letter>2:<letter><1+n>" and reads back as that range |
| Sheet.ColumnRangeCovers | processador.py:109 | a written range covers exactly the n data cells of its column |

## Left out

- Google Sheets access (`setup_google_sheets`, `batch_clear`, `append_row`, `update`, `get_all_values`, `col_values`): external I/O. Reads are parameters. Writes are the rows and `ColumnWrite`s the model returns, plus `Sheet.Apply` for what an update does to the grid. Appends are assumed to succeed.
- Selenium (`setup_driver`, cookie handling, waits, `time.sleep`) and BeautifulSoup parsing: browser automation. A query's page arrives already parsed as a `Page`. A timeout or other error while loading it is the `Failed` page.
- `scrape_detalhes_licitacao`: DOM navigation, modelled as the `detail` function from link to deadline text. Its own error strings are whatever that function returns.
- `datetime.now()`: the run date is the `today` parameter.
- `urllib.parse.quote` and the search URL: they affect only what the portal returns, which is a parameter.
- Console output and the exception messages.
- An exception raised inside a query's item loop (other than a missing `href`) is not modelled. Such exceptions come from the browser and parsing layers left out above, and from a failing `append_row` (app.py:213), which is covered by the assumption above that appends succeed. A failing append would abandon the query after the counter step at app.py:208 and before the link joins the seen set at app.py:214.
- The outer `except` around the whole search is left out for the same reason.
- Accents.StripAccents: NFD is modelled for the precomposed Latin-1 letters (U+00C0–U+00FF). Other non-ASCII characters are kept whole by the decomposition and then dropped. Python would decompose more of them, for example Latin Extended-A letters, and keep their base letter.
- Text.Lower: `lower` and `title` are modelled on ASCII and Latin-1 characters. ß, ÿ and µ are cased, but their Python upper forms ("SS", "Ÿ", "Μ") lie outside Latin-1, so the model keeps them unchanged when capitalising. ª and º are cased and are their own capitals, as in Python. Characters outside Latin-1 are treated as uncased.
- Text.Title: same restriction as `Text.Lower`. It also does not model the titlecase digraphs of Unicode.
- Normalizer.CleanOrgValue: `main` only ever passes strings read from the sheet, so the non-string path is modelled on its own and not reached from `Sheet.Process`.
- Sheet.ColumnRangeText: only columns A–Z. For a column index of 26 or more, `chr(ord("A") + idx)` produces a character that is not a column letter, and the script would send an invalid range; the model does not render those. `Sheet.Process` and `Sheet.Rewritten` still describe such a pass as a rewrite applied to the grid, whereas the script's `update` would raise and write nothing.
- Sheet.RewriteColumns: `get_all_values` normally pads rows to equal width, so a too-short data row may never occur. It is still modelled: the `IndexError` is caught by the general handler and nothing is written.
- The `if objetos_processados:` and `if orgaos_processados:` guards always pass once the "no data" check has passed, so they are not modelled separately.
- Value aggregation, pagination and currency formatting: the scripts do none of this.

=== FILE: accents.dfy ===
/**
 * `strip_accents` from processador.py: Unicode NFD decomposition followed by
 * `encode('ascii', 'ignore')`, which drops every character that is not ASCII.
 *
 * NFD is modelled for the precomposed Latin-1 letters, each of which splits
 * into an ASCII base letter and one combining mark (U+0300–U+0327). Every other
 * character is its own decomposition, which in particular makes NFD the
 * identity on ASCII text.
 */
module Accents {

  import opened Common
  import opened Text

  /** The ASCII base letter of a precomposed Latin-1 letter with one diacritic. */
  function LatinBase(c: char): Option<char> {
    if c < 'À' || 'ÿ' < c then None
    else match c
    case 'À' => Some('A') case 'Á' => Some('A') case 'Â' => Some('A')
    case 'Ã' => Some('A') case 'Ä' => Some('A') case 'Å' => Some('A')
    case 'Ç' => Some('C')
    case 'È' => Some('E') case 'É' => Some('E') case 'Ê' => Some('E') case 'Ë' => Some('E')
    case 'Ì' => Some('I') case 'Í' => Some('I') case 'Î' => Some('I') case 'Ï' => Some('I')
    case 'Ñ' => Some('N')
    case 'Ò' => Some('O') case 'Ó' => Some('O') case 'Ô' => Some('O')
    case 'Õ' => Some('O') case 'Ö' => Some('O')
    case 'Ù' => Some('U') case 'Ú' => Some('U') case 'Û' => Some('U') case 'Ü' => Some('U')
    case 'Ý' => Some('Y')
    case 'à' => Some('a') case 'á' => Some('a') case 'â' => Some('a')
    case 'ã' => Some('a') case 'ä' => Some('a') case 'å' => Some('a')
    case 'ç' => Some('c')
    case 'è' => Some('e') case 'é' => Some('e') case 'ê' => Some('e') case 'ë' => Some('e')
    case 'ì' => Some('i') case 'í' => Some('i') case 'î' => Some('i') case 'ï' => Some('i')
    case 'ñ' => Some('n')
    case 'ò' => Some('o') case 'ó' => Some('o') case 'ô' => Some('o')
    case 'õ' => Some('o') case 'ö' => Some('o')
    case 'ù' => Some('u') case 'ú' => Some('u') case 'û' => Some('u') case 'ü' => Some('u')
    case 'ý' => Some('y') case 'ÿ' => Some('y')
    case _ => None
  }

  /** The combining mark NFD places after the base letter of c. */
  function CombiningMark(c: char): char
    requires LatinBase(c).Some?
  {
    match c
    case 'À' => '\U{0300}' case 'È' => '\U{0300}' case 'Ì' => '\U{0300}'
    case 'Ò' => '\U{0300}' case 'Ù' => '\U{0300}'
    case 'à' => '\U{0300}' case 'è' => '\U{0300}' case 'ì' => '\U{0300}'
    case 'ò' => '\U{0300}' case 'ù' => '\U{0300}'
    case 'Â' => '\U{0302}' case 'Ê' => '\U{0302}' case 'Î' => '\U{0302}'
    case 'Ô' => '\U{0302}' case 'Û' => '\U{0302}'
    case 'â' => '\U{0302}' case 'ê' => '\U{0302}' case 'î' => '\U{0302}'
    case 'ô' => '\U{0302}' case 'û' => '\U{0302}'
    case 'Ã' => '\U{0303}' case 'Ñ' => '\U{0303}' case 'Õ' => '\U{0303}'
    case 'ã' => '\U{0303}' case 'ñ' => '\U{0303}' case 'õ' => '\U{0303}'
    case 'Ä' => '\U{0308}' case 'Ë' => '\U{0308}' case 'Ï' => '\U{0308}'
    case 'Ö' => '\U{0308}' case 'Ü' => '\U{0308}'
    case 'ä' => '\U{0308}' case 'ë' => '\U{0308}' case 'ï' => '\U{0308}'
    case 'ö' => '\U{0308}' case 'ü' => '\U{0308}' case 'ÿ' => '\U{0308}'
    case 'Å' => '\U{030A}' case 'å' => '\U{030A}'
    case 'Ç' => '\U{0327}' case 'ç' => '\U{0327}'
    case _ => '\U{0301}'
  }

  /** Canonical decomposition of one character. */
  function Decompose(c: char): (d: string)
    ensures IsAscii(c) ==> d == [c]
    ensures 1 <= |d| <= 2
  {
    match LatinBase(c)
    case Some(b) => [b, CombiningMark(c)]
    case None => [c]
  }

  /** `unicodedata.normalize('NFD', s)`, character by character. */
  function Nfd(s: string): string {
    if s == [] then [] else Decompose(s[0]) + Nfd(s[1..])
  }

  /** `s.encode('ascii', 'ignore').decode()`: keep the ASCII characters, in order. */
  function DropNonAscii(s: string): (r: string)
    ensures forall i :: 0 <= i < |r| ==> IsAscii(r[i])
    ensures |r| <= |s|
  {
    if s == [] then []
    else if IsAscii(s[0]) then [s[0]] + DropNonAscii(s[1..])
    else DropNonAscii(s[1..])
  }

  /**
   * `strip_accents`: the result is pure ASCII, and ASCII text comes back
   * unchanged.
   */
  function StripAccents(s: string): (r: string)
    ensures forall i :: 0 <= i < |r| ==> IsAscii(r[i])
    ensures (forall i :: 0 <= i < |s| ==> IsAscii(s[i])) ==> r == s
  {
    var r := DropNonAscii(Nfd(s));
    assert (forall i :: 0 <= i < |s| ==> IsAscii(s[i])) ==> r == s by {
      if forall i :: 0 <= i < |s| ==> IsAscii(s[i]) {
        AsciiFixed(s);
      }
    }
    r
  }

  lemma {:induction false} AsciiFixed(s: string)
    requires forall i :: 0 <= i < |s| ==> IsAscii(s[i])
    ensures DropNonAscii(Nfd(s)) == s
  {
    if s != [] {
      AsciiFixed(s[1..]);
    }
  }

  /** What a character becomes after stripping: its ASCII base, itself if ASCII, or nothing. */
  function Folded(c: char): string {
    match LatinBase(c)
    case Some(b) => [b]
    case None => if IsAscii(c) then [c] else []
  }

  lemma {:induction false} DropNonAsciiAppend(a: string, b: string)
    ensures DropNonAscii(a + b) == DropNonAscii(a) + DropNonAscii(b)
  {
    if a == [] {
      assert a + b == b;
    } else {
      assert (a + b)[0] == a[0];
      assert (a + b)[1..] == a[1..] + b;
      DropNonAsciiAppend(a[1..], b);
      if IsAscii(a[0]) {
        assert DropNonAscii(a + b) == [a[0]] + (DropNonAscii(a[1..]) + DropNonAscii(b));
      }
    }
  }

  /**
   * Stripping works one character at a time: the first character of s
   * contributes exactly `Folded(s[0])`, whatever follows.
   */
  lemma {:induction false} StripAccentsCons(s: string)
    requires s != []
    ensures StripAccents(s) == Folded(s[0]) + StripAccents(s[1..])
  {
    DropNonAsciiAppend(Decompose(s[0]), Nfd(s[1..]));
    var c := s[0];
    if LatinBase(c).Some? {
      assert DropNonAscii([CombiningMark(c)]) == [];
      assert DropNonAscii(Decompose(c)) == [LatinBase(c).value] + DropNonAscii([CombiningMark(c)]);
    }
  }

  /** A character that is not a capital folds to no capital: small letters keep small bases. */
  lemma FoldedNoUpper(c: char)
    requires !IsUpper(c)
    ensures forall i :: 0 <= i < |Folded(c)| ==> !IsUpper(Folded(c)[i])
  {
  }

  /** Stripping text without capitals yields no capital. */
  lemma {:induction false} StripAccentsNoUpper(s: string)
    requires forall i :: 0 <= i < |s| ==> !IsUpper(s[i])
    ensures forall i :: 0 <= i < |StripAccents(s)| ==> !IsUpper(StripAccents(s)[i])
    decreases |s|
  {
    if s != [] {
      StripAccentsCons(s);
      FoldedNoUpper(s[0]);
      StripAccentsNoUpper(s[1..]);
      var f, rest := Folded(s[0]), StripAccents(s[1..]);
      forall i | 0 <= i < |StripAccents(s)|
        ensures !IsUpper(StripAccents(s)[i])
      {
        if i >= |f| {
          assert StripAccents(s)[i] == rest[i - |f|];
        }
      }
    }
  }

  /**
   * When every character is ASCII or a precomposed Latin-1 letter, stripping
   * replaces each character by its base and keeps the length.
   */
  lemma {:induction false} StripAccentsLatin(s: string)
    requires forall i :: 0 <= i < |s| ==> IsAscii(s[i]) || LatinBase(s[i]).Some?
    ensures |StripAccents(s)| == |s|
    ensures forall i :: 0 <= i < |s| ==> [StripAccents(s)[i]] == Folded(s[i])
  {
    if s != [] {
      StripAccentsCons(s);
      StripAccentsLatin(s[1..]);
      assert |Folded(s[0])| == 1;
      forall i | 0 < i < |s|
        ensures [StripAccents(s)[i]] == Folded(s[i])
      {
        assert StripAccents(s)[i] == StripAccents(s[1..])[i - 1];
        assert s[1..][i - 1] == s[i];
      }
    }
  }

  /** Stripping read off character by character, when each character folds to one. */
  lemma StripAccentsPointwise(s: string, t: string)
    requires |s| == |t| && forall i :: 0 <= i < |s| ==> Folded(s[i]) == [t[i]]
    ensures StripAccents(s) == t
  {
    forall i | 0 <= i < |s|
      ensures IsAscii(s[i]) || LatinBase(s[i]).Some?
    {
      assert |Folded(s[i])| == 1;
    }
    StripAccentsLatin(s);
    forall i | 0 <= i < |s|
      ensures StripAccents(s)[i] == t[i]
    {
      assert [StripAccents(s)[i]] == [t[i]];
    }
  }
}

=== FILE: common.dfy ===
/** Small shared vocabulary: an optional value and "first element satisfying a test". */
module Common {

  datatype Option<+T> = None | Some(value: T) {
    function GetOr(default: T): T {
      match this
      case Some(v) => v
      case None => default
    }
  }

  /** Index of the first element of xs that passes the test, scanning in list order. */
  function FirstWhere<T>(xs: seq<T>, test: T -> bool): (r: Option<nat>)
    ensures r.Some? ==> r.value < |xs| && test(xs[r.value])
    ensures r.Some? ==> forall j :: 0 <= j < r.value ==> !test(xs[j])
    ensures r.None? <==> forall j :: 0 <= j < |xs| ==> !test(xs[j])
  {
    if xs == [] then None
    else if test(xs[0]) then Some(0)
    else
      match FirstWhere(xs[1..], test)
      case None => None
      case Some(k) => Some(k + 1)
  }

  /** Index of the last element of xs that passes the test, scanning from the end. */
  function LastWhere<T>(xs: seq<T>, test: T -> bool): (r: Option<nat>)
    ensures r.Some? ==> r.value < |xs| && test(xs[r.value])
    ensures r.Some? ==> forall j :: r.value < j < |xs| ==> !test(xs[j])
    ensures r.None? <==> forall j :: 0 <= j < |xs| ==> !test(xs[j])
    decreases |xs|
  {
    if xs == [] then None
    else if test(xs[|xs| - 1]) then Some(|xs| - 1)
    else LastWhere(xs[..|xs| - 1], test)
  }
}

=== FILE: config.dfy ===
/** The configuration constants at the top of app.py and processador.py. */
module Config {

  /** Regions of interest, in search order (app.py `UFS_INTERESSE`). */
  const Regions: seq<string> := ["SP", "MG", "RJ", "ES", "PR", "SC", "RS", "DF"]

  /** Search keywords, in search order (app.py `PALAVRAS_CHAVE`). */
  const Keywords: seq<string> := [
    "vigilancia", "seguranca", "videomonitoramento", "cftv", "monitoramento"
  ]

  /** Exclusion substrings (app.py `PALAVRAS_EXCLUIDAS`); matched against lower-cased text only. */
  const Excluded: seq<string> := [
    "sanitaria", "sanitario", "saude", "epidemiologica", "glicemia", "hospitalar", "ambulatorial",
    "uniformes", "mochilas", "crachas", "coletes", "veiculos", "viatura",
    "tablets", "informatica", "software", "sistema",
    "obras", "engenharia", "passeios", "construcao", "guarita",
    "alimentacao", "cartao", "beneficio", "material didatico",
    "mesa", "pia", "inox", "leitor de codigo", "impressora", "transporte", "cartão",
    "alimentação", "condicionado"
  ]

  /** Canonical object phrases in priority order (processador.py `FRASES_CHAVE_OBJETO`). */
  const Phrases: seq<string> := [
    "vigilancia armada", "vigilancia desarmada", "seguranca armada", "seguranca desarmada",
    "seguranca eletronica", "servicos de vigilancia", "vigilancia patrimonial",
    "videomonitoramento", "cftv", "monitoramento", "vigilancia", "seguranca"
  ]

  /** Organisation-name boilerplate prefixes, in the order `limpar_nome_orgao` tries them. */
  const OrgPrefixes: seq<string> := [
    "prefeitura municipal de", "municipio de", "câmara municipal de",
    "fundo municipal de", "secretaria municipal de"
  ]

  /** `LINHA_CABECALHO`: the 1-based sheet row holding the header (the same in both scripts). */
  const HeaderRow: nat := 1

  /** Host prefixed to every listing's relative link. */
  const PortalBase: string := "https://www.portaldecompraspublicas.com.br"

  /** Separator between organisation and region in a listing's location text. */
  const RegionSeparator: string := " - "

  /** Placeholder the scraper writes for a field it could not find. */
  const Missing: string := "N/A"

  /** Status written in the first column of every new row. */
  const OpenStatus: string := "Aberto"

  /** Width of a listing row: columns A through I. */
  const RowWidth: nat := 9

  /** 1-based column the link is written to and read back from (`col_values(8)`, column H). */
  const LinkColumn: nat := 8

  /** Header titles the normaliser looks up. */
  const ObjectHeader: string := "Objeto da Licitação"
  const OrgHeader: string := "Órgão Licitante"
}

=== FILE: listing.dfy ===
/**
 * The item-processing loop of app.py `main`: which search-result items
 * become spreadsheet rows.
 *
 * Search results arrive already parsed: an item carries its detail-link
 * anchor, its `h2` heading and its `span`s. The detail page is reached
 * through `detail`, a function from the listing's link to the deadline text
 * that `scrape_detalhes_licitacao` would return; the run date is `today`.
 * The run is a fold over the query plan and, inside each query, over the
 * items, threading the seen-link set, the counter, the appended rows and the
 * links whose detail page was visited.
 */
module Listing {

  import opened Common
  import opened Text
  import opened Planner
  import opened Ranges
  import Config

  // ---------------------------------------------------------------------------
  // Parsed search results
  // ---------------------------------------------------------------------------

  /** Which icon a span holds: `cp-calendario` (date), `cp-pin-mapa` (location) or neither. A span with both icons counts as a date. */
  datatype SpanKind = Calendar | Pin | Plain

  /** A `span` of a result item, with its stripped text. */
  datatype Span = Span(kind: SpanKind, text: string)

  /** The `a.btn-default` anchor; `href` is None when the attribute is absent. */
  datatype Anchor = Anchor(href: Option<string>)

  /** The `h2` heading: the stripped text of its `a` (the object) and of its `span` (the listing number), when present. */
  datatype Heading = Heading(objectText: Option<string>, number: Option<string>)

  /** One `div.item` of a result page. */
  datatype Item = Item(link: Option<Anchor>, heading: Option<Heading>, spans: seq<Span>)

  /** What a query's result page turned out to be. */
  datatype Page =
    | Results(items: seq<Item>)   // `div.item` blocks
    | NoResults                   // the `empty-list-container` marker
    | Failed                      // a timeout or another error before the items

  // ---------------------------------------------------------------------------
  // Span parsing: date, organisation and region
  // ---------------------------------------------------------------------------

  datatype SpanFields = SpanFields(date: string, org: string, region: string)

  /** The body of the span loop: a date span overwrites the date; a location span overwrites the organisation, and the region only when the text has a separator. */
  function ReadSpan(acc: SpanFields, span: Span): SpanFields {
    match span.kind
    case Calendar => acc.(date := span.text)
    case Pin =>
      var parts := RSplitOnce(span.text, Config.RegionSeparator);
      acc.(org := parts[0], region := if |parts| > 1 then parts[1] else acc.region)
    case Plain => acc
  }

  function ReadSpansFrom(acc: SpanFields, spans: seq<Span>): SpanFields
    decreases |spans|
  {
    if spans == [] then acc else ReadSpansFrom(ReadSpan(acc, spans[0]), spans[1..])
  }

  /** The span loop, starting from "N/A" for all three fields. */
  function ReadSpans(spans: seq<Span>): SpanFields {
    ReadSpansFrom(SpanFields(Config.Missing, Config.Missing, Config.Missing), spans)
  }

  predicate IsDateSpan(s: Span) { s.kind == Calendar }
  predicate IsPinSpan(s: Span) { s.kind == Pin }
  predicate IsRegionSpan(s: Span) { s.kind == Pin && Contains(s.text, Config.RegionSeparator) }

  /** Reference reading, last one wins: the text of the last date span. */
  function LastDate(spans: seq<Span>): string {
    match LastWhere(spans, IsDateSpan)
    case None => Config.Missing
    case Some(k) => spans[k].text
  }

  /** Reference reading: the text of the last location span, cut at its last separator. */
  function LastOrg(spans: seq<Span>): string {
    match LastWhere(spans, IsPinSpan)
    case None => Config.Missing
    case Some(k) => RSplitOnce(spans[k].text, Config.RegionSeparator)[0]
  }

  /** Reference reading: what follows the last separator of the last location span that has one. */
  function LastRegion(spans: seq<Span>): string {
    match LastWhere(spans, IsRegionSpan)
    case None => Config.Missing
    case Some(k) => RSplitOnce(spans[k].text, Config.RegionSeparator)[1]
  }

  lemma {:induction false} ReadSpansSnoc(acc: SpanFields, spans: seq<Span>, s: Span)
    ensures ReadSpansFrom(acc, spans + [s]) == ReadSpan(ReadSpansFrom(acc, spans), s)
    decreases |spans|
  {
    if spans == [] {
      assert ([] + [s])[1..] == [];
    } else {
      assert (spans + [s])[1..] == spans[1..] + [s];
      ReadSpansSnoc(ReadSpan(acc, spans[0]), spans[1..], s);
    }
  }

  /** The overwriting loop yields exactly the last-one-wins reading of the spans. */
  lemma {:induction false} ReadSpansIsLastWins(spans: seq<Span>)
    ensures ReadSpans(spans) == SpanFields(LastDate(spans), LastOrg(spans), LastRegion(spans))
    decreases |spans|
  {
    if spans != [] {
      var init, last := spans[..|spans| - 1], spans[|spans| - 1];
      assert spans == init + [last];
      ReadSpansSnoc(SpanFields(Config.Missing, Config.Missing, Config.Missing), init, last);
      ReadSpansIsLastWins(init);
    }
  }

  /** When the last location span has a separator, it is also the last span carrying a region. */
  lemma LastPinIsLastRegion(spans: seq<Span>, k: nat)
    requires LastWhere(spans, IsPinSpan) == Some(k)
    requires Contains(spans[k].text, Config.RegionSeparator)
    ensures LastWhere(spans, IsRegionSpan) == Some(k)
  {
    assert IsRegionSpan(spans[k]);
    var m := LastWhere(spans, IsRegionSpan);
    assert m.Some?;
    if m.value < k {
      assert false;
    } else if m.value > k {
      assert false;
    }
  }

  /**
   * When the last location span has a separator, the organisation and the
   * region re-join to its text and the region holds no separator.
   */
  lemma LocationSplitJoins(spans: seq<Span>, k: nat)
    requires LastWhere(spans, IsPinSpan) == Some(k)
    requires Contains(spans[k].text, Config.RegionSeparator)
    ensures ReadSpans(spans).org + Config.RegionSeparator + ReadSpans(spans).region == spans[k].text
    ensures !Contains(ReadSpans(spans).region, Config.RegionSeparator)
    ensures FindLast(spans[k].text, Config.RegionSeparator) == Some(|ReadSpans(spans).org|)
  {
    ReadSpansIsLastWins(spans);
    LastPinIsLastRegion(spans, k);
    var parts := RSplitOnce(spans[k].text, Config.RegionSeparator);
    assert |parts| == 2;
    assert ReadSpans(spans).org == parts[0];
    assert ReadSpans(spans).region == parts[1];
  }

  /** When no location span has a separator, the region stays "N/A". */
  lemma RegionMissingWithoutSeparator(spans: seq<Span>)
    requires forall i :: 0 <= i < |spans| ==> !IsRegionSpan(spans[i])
    ensures ReadSpans(spans).region == Config.Missing
  {
    ReadSpansIsLastWins(spans);
    assert LastWhere(spans, IsRegionSpan).None?;
  }

  /**
   * When the last location span has a separator, the organisation and the
   * region re-join to its text at the right-most separator, so the region
   * holds no separator; when no location span has one, the region stays "N/A".
   */
  lemma LocationSplit(spans: seq<Span>)
    ensures var f := ReadSpans(spans);
            var k := LastWhere(spans, IsPinSpan);
            k.Some? && Contains(spans[k.value].text, Config.RegionSeparator) ==>
              f.org + Config.RegionSeparator + f.region == spans[k.value].text
              && !Contains(f.region, Config.RegionSeparator)
              && FindLast(spans[k.value].text, Config.RegionSeparator) == Some(|f.org|)
    ensures (forall i :: 0 <= i < |spans| ==> !IsRegionSpan(spans[i])) ==> ReadSpans(spans).region == Config.Missing
  {
    var k := LastWhere(spans, IsPinSpan);
    if k.Some? && Contains(spans[k.value].text, Config.RegionSeparator) {
      LocationSplitJoins(spans, k.value);
    }
    if forall i :: 0 <= i < |spans| ==> !IsRegionSpan(spans[i]) {
      RegionMissingWithoutSeparator(spans);
    }
  }

  // ---------------------------------------------------------------------------
  // Rows
  // ---------------------------------------------------------------------------

  /** A new spreadsheet row, named field by field. */
  datatype Row = Row(status: string, published: string, deadline: string, region: string, org: string,
                     number: string, objectText: string, link: string, found: string)

  /** The row in sheet column order, A through I, as passed to `append_row`. */
  function Cells(r: Row): (cells: seq<string>)
    ensures |cells| == Config.RowWidth
    ensures cells[0] == r.status && cells[3] == r.region && cells[Config.LinkColumn - 1] == r.link
  {
    [r.status, r.published, r.deadline, r.region, r.org, r.number, r.objectText, r.link, r.found]
  }

  function LinksOf(rows: seq<Row>): set<string> {
    set i | 0 <= i < |rows| :: rows[i].link
  }

  // ---------------------------------------------------------------------------
  // Per-item gates
  // ---------------------------------------------------------------------------

  /** The portal link of an item that has both tags and an href. */
  function LinkOf(item: Item): Option<string> {
    if item.link.Some? && item.heading.Some? && item.link.value.href.Some?
    then Some(Config.PortalBase + item.link.value.href.value)
    else None
  }

  /** `objeto_raw`: the heading anchor's text, or "N/A". */
  function ObjectOf(item: Item): string
    requires item.heading.Some?
  {
    item.heading.value.objectText.GetOr(Config.Missing)
  }

  /** Some exclusion entry is a substring of the lower-cased object text (no accent folding). */
  predicate IsExcluded(objectText: string) {
    exists k | 0 <= k < |Config.Excluded| :: Contains(Lower(objectText), Config.Excluded[k])
  }

  /** Every exclusion entry holds an a, an e or an i. */
  lemma ExcludedHoldVowel(k: nat)
    requires k < |Config.Excluded|
    ensures exists j :: 0 <= j < |Config.Excluded[k]| && Config.Excluded[k][j] in "aei"
  {
    var w := Config.Excluded[k];
    assert 'a' in w || 'e' in w || 'i' in w;
  }

  lemma ConstrucaoLower()
    ensures Lower("Construcao") == "construcao"
    ensures Lower("Construção") == "construção"
  {
    LowerPointwise("Construcao", "construcao");
    LowerPointwise("Construção", "construção");
  }

  /**
   * The exclusion test folds case but not accents: "Construcao" is excluded
   * through "construcao", while "Construção" passes, because every exclusion
   * entry holds an a, e or i, none of which occurs in "construção".
   */
  lemma AccentedObjectNotExcluded()
    ensures IsExcluded("Construcao")
    ensures !IsExcluded("Construção")
  {
    ConstrucaoLower();
    assert OccursAt(Lower("Construcao"), Config.Excluded[20], 0);
    var low := "construção";
    forall k | 0 <= k < |Config.Excluded|
      ensures !Contains(low, Config.Excluded[k])
    {
      ExcludedHoldVowel(k);
      var w := Config.Excluded[k];
      var j :| 0 <= j < |w| && w[j] in "aei";
      NotContainsByMissingChar(low, w, j);
    }
  }

  /** The fate of one item. */
  datatype Verdict =
    | MissingTag                               // no detail-link anchor or no `h2`
    | MissingHref                              // `link_tag['href']` raises; the query's other items are lost
    | Duplicate(link: string)                  // already in the seen set
    | Excluded(link: string)                   // an exclusion entry occurs in the object text
    | RegionMismatch(link: string, found: string)  // detail page visited, region differs from the query's
    | Accepted(row: Row)                       // detail page visited, row appended

  /** The item passed the presence, duplicate and exclusion gates, so its detail page is opened. */
  predicate Visits(v: Verdict) {
    v.RegionMismatch? || v.Accepted?
  }

  /**
   * The gates of one item, in the source's order: tag presence, href,
   * seen set, exclusion, then (after the detail visit) the region check.
   */
  function Judge(seen: set<string>, region: string, item: Item, detail: string -> string, today: string): (v: Verdict)
    ensures v.MissingTag? <==> item.link.None? || item.heading.None?
    ensures v.MissingHref? <==> item.link.Some? && item.heading.Some? && item.link.value.href.None?
    ensures v.Duplicate? <==> LinkOf(item).Some? && LinkOf(item).value in seen
    ensures v.Excluded? <==> LinkOf(item).Some? && LinkOf(item).value !in seen && IsExcluded(ObjectOf(item))
    ensures Visits(v) <==> LinkOf(item).Some? && LinkOf(item).value !in seen && !IsExcluded(ObjectOf(item))
    ensures v.Accepted? <==> Visits(v) && ReadSpans(item.spans).region == region
    ensures (v.Duplicate? || v.Excluded? || v.RegionMismatch?) ==> v.link == LinkOf(item).value
    ensures v.RegionMismatch? ==> v.found == ReadSpans(item.spans).region
    ensures v.Accepted? ==>
              && v.row.link == LinkOf(item).value
              && v.row.status == Config.OpenStatus
              && v.row.region == region
              && v.row.deadline == detail(v.row.link)
              && v.row.objectText == ObjectOf(item)
              && v.row.published == ReadSpans(item.spans).date
              && v.row.org == ReadSpans(item.spans).org
              && v.row.number == item.heading.value.number.GetOr(Config.Missing)
              && v.row.found == today
              && StartsWith(v.row.link, Config.PortalBase)
  {
    if item.link.None? || item.heading.None? then MissingTag
    else if item.link.value.href.None? then MissingHref
    else
      var link := Config.PortalBase + item.link.value.href.value;
      if link in seen then Duplicate(link)
      else
        var heading := item.heading.value;
        var objectText := heading.objectText.GetOr(Config.Missing);
        if IsExcluded(objectText) then Excluded(link)
        else
          var deadline := detail(link);
          var fields := ReadSpans(item.spans);
          var number := heading.number.GetOr(Config.Missing);
          if fields.region != region then RegionMismatch(link, fields.region)
          else Accepted(Row(Config.OpenStatus, fields.date, deadline, region, fields.org,
                            number, objectText, link, today))
  }

  /** `link_tag['href']` raises: both tags are present but the anchor has no href. */
  predicate HrefMissing(item: Item) {
    item.link.Some? && item.heading.Some? && item.link.value.href.None?
  }

  /** The item loop reaches item i: no earlier item stopped it by lacking its href. */
  predicate Reached(items: seq<Item>, i: nat)
    requires i <= |items|
  {
    forall j :: 0 <= j < i ==> !HrefMissing(items[j])
  }

  /** The item has a portal link and passes the exclusion and region gates, whatever the seen set holds. */
  predicate Wanted(region: string, item: Item) {
    LinkOf(item).Some? && !IsExcluded(ObjectOf(item)) && ReadSpans(item.spans).region == region
  }

  /** The links of the items an item loop reaches that pass the exclusion and region gates. */
  function Candidates(region: string, items: seq<Item>): set<string> {
    set i | 0 <= i < |items| && Reached(items, i) && Wanted(region, items[i]) :: LinkOf(items[i]).value
  }

  /** The candidates of a query's result page; a page without results has none. */
  function PageCandidates(q: Query, page: Page): set<string> {
    match page
    case Results(items) => Candidates(q.region, items)
    case _ => {}
  }

  /** The candidates of every query of a plan, each against its own result page. */
  function PlanCandidates(qs: seq<Query>, search: Query -> Page): set<string> {
    set i, l | 0 <= i < |qs| && l in PageCandidates(qs[i], search(qs[i])) :: l
  }

  /** The item gates accept exactly the wanted items whose link is not yet seen. */
  lemma AcceptedIffWanted(seen: set<string>, region: string, item: Item, detail: string -> string, today: string)
    ensures Judge(seen, region, item, detail, today).Accepted? <==> Wanted(region, item) && LinkOf(item).value !in seen
  {
  }

  lemma CandidatesStopped(region: string, items: seq<Item>)
    requires items != [] && HrefMissing(items[0])
    ensures Candidates(region, items) == {}
  {
    forall i | 0 < i < |items|
      ensures !Reached(items, i)
    {
      assert HrefMissing(items[0]);
    }
  }

  /** Without a stop at the head, the candidates are the head's link (when wanted) and those of the rest. */
  lemma CandidatesCons(region: string, items: seq<Item>)
    requires items != [] && !HrefMissing(items[0])
    ensures Candidates(region, items) ==
              (if Wanted(region, items[0]) then {LinkOf(items[0]).value} else {}) + Candidates(region, items[1..])
  {
    var rest := items[1..];
    forall i | 0 < i <= |items|
      ensures Reached(items, i) <==> Reached(rest, i - 1)
    {
      if Reached(rest, i - 1) {
        forall j | 0 <= j < i
          ensures !HrefMissing(items[j])
        {
          if j > 0 {
            assert items[j] == rest[j - 1];
          }
        }
      }
      if Reached(items, i) {
        forall j | 0 <= j < i - 1
          ensures !HrefMissing(rest[j])
        {
          assert rest[j] == items[j + 1];
        }
      }
    }
    forall l | l in Candidates(region, rest)
      ensures l in Candidates(region, items)
    {
      var i :| 0 <= i < |rest| && Reached(rest, i) && Wanted(region, rest[i]) && LinkOf(rest[i]).value == l;
      assert rest[i] == items[i + 1];
    }
    forall l | l in Candidates(region, items)
      ensures (Wanted(region, items[0]) && l == LinkOf(items[0]).value) || l in Candidates(region, rest)
    {
      var i :| 0 <= i < |items| && Reached(items, i) && Wanted(region, items[i]) && LinkOf(items[i]).value == l;
      if i > 0 {
        assert items[i] == rest[i - 1];
      }
    }
    if Wanted(region, items[0]) {
      assert Reached(items, 0);
    }
  }

  lemma PlanCandidatesCons(qs: seq<Query>, search: Query -> Page)
    requires qs != []
    ensures PlanCandidates(qs, search) == PageCandidates(qs[0], search(qs[0])) + PlanCandidates(qs[1..], search)
  {
    var rest := qs[1..];
    forall l | l in PlanCandidates(qs, search)
      ensures l in PageCandidates(qs[0], search(qs[0])) + PlanCandidates(rest, search)
    {
      var i :| 0 <= i < |qs| && l in PageCandidates(qs[i], search(qs[i]));
      if i > 0 {
        assert qs[i] == rest[i - 1];
      }
    }
    forall l | l in PlanCandidates(rest, search)
      ensures l in PlanCandidates(qs, search)
    {
      var i :| 0 <= i < |rest| && l in PageCandidates(rest[i], search(rest[i]));
      assert rest[i] == qs[i + 1];
    }
    forall l | l in PageCandidates(qs[0], search(qs[0]))
      ensures l in PlanCandidates(qs, search)
    {
      assert 0 < |qs|;
    }
  }

  // ---------------------------------------------------------------------------
  // The run state and the fold
  // ---------------------------------------------------------------------------

  /** `links_salvos`, `novas_licitacoes_encontradas`, the rows appended so far and the detail pages opened so far. */
  datatype RunState = RunState(seen: set<string>, count: nat, rows: seq<Row>, visits: seq<string>)

  function Apply(st: RunState, v: Verdict): RunState {
    match v
    case Accepted(row) =>
      RunState(st.seen + {row.link}, st.count + 1, st.rows + [row], st.visits + [row.link])
    case RegionMismatch(link, _) => st.(visits := st.visits + [link])
    case _ => st
  }

  /**
   * b is a continuation of a: rows and visits were only appended, the counter
   * grew by the number of new rows, each new row's link was unseen before and
   * is seen after, and no two new rows share a link.
   */
  ghost predicate Grows(a: RunState, b: RunState) {
    && |a.rows| <= |b.rows| && b.rows[..|a.rows|] == a.rows
    && |a.visits| <= |b.visits| && b.visits[..|a.visits|] == a.visits
    && b.count == a.count + (|b.rows| - |a.rows|)
    && b.seen == a.seen + LinksOf(b.rows[|a.rows|..])
    && (forall i :: |a.rows| <= i < |b.rows| ==> b.rows[i].link !in a.seen)
    && (forall i, j :: |a.rows| <= i < j < |b.rows| ==> b.rows[i].link != b.rows[j].link)
  }

  lemma GrowsRefl(a: RunState)
    ensures Grows(a, a)
  {
    assert a.rows[|a.rows|..] == [];
  }

  lemma LinksOfAppend(x: seq<Row>, y: seq<Row>)
    ensures LinksOf(x + y) == LinksOf(x) + LinksOf(y)
  {
    forall l | l in LinksOf(x + y)
      ensures l in LinksOf(x) + LinksOf(y)
    {
      var i :| 0 <= i < |x + y| && (x + y)[i].link == l;
      if i >= |x| {
        assert y[i - |x|] == (x + y)[i];
      }
    }
    forall l | l in LinksOf(x) + LinksOf(y)
      ensures l in LinksOf(x + y)
    {
      if l in LinksOf(x) {
        var i :| 0 <= i < |x| && x[i].link == l;
        assert (x + y)[i] == x[i];
      } else {
        var i :| 0 <= i < |y| && y[i].link == l;
        assert (x + y)[|x| + i] == y[i];
      }
    }
  }

  lemma GrowsTrans(a: RunState, b: RunState, c: RunState)
    requires Grows(a, b) && Grows(b, c)
    ensures Grows(a, c)
  {
    var na, nb := |a.rows|, |b.rows|;
    assert c.rows[..na] == b.rows[..nb][..na];
    assert c.visits[..|a.visits|] == c.visits[..|b.visits|][..|a.visits|];
    assert c.rows[na..] == b.rows[na..] + c.rows[nb..] by {
      assert c.rows == c.rows[..nb] + c.rows[nb..];
    }
    LinksOfAppend(b.rows[na..], c.rows[nb..]);
    forall i | na <= i < nb
      ensures c.rows[i] == b.rows[i] && b.rows[i].link in b.seen
    {
      assert c.rows[i] == c.rows[..nb][i];
      assert b.rows[i] == b.rows[na..][i - na];
    }
  }

  /** One item moves the state forward. */
  lemma ApplyGrows(st: RunState, region: string, item: Item, detail: string -> string, today: string)
    ensures Grows(st, Apply(st, Judge(st.seen, region, item, detail, today)))
  {
    var v := Judge(st.seen, region, item, detail, today);
    var r := Apply(st, v);
    if v.Accepted? {
      assert r.rows[..|st.rows|] == st.rows;
      assert r.visits[..|st.visits|] == st.visits;
      assert r.rows[|st.rows|..] == [v.row];
      assert [v.row][0] == v.row;
      assert LinksOf([v.row]) == {v.row.link};
    } else if v.RegionMismatch? {
      GrowsRefl(st);
      assert r.visits[..|st.visits|] == st.visits;
    } else {
      GrowsRefl(st);
    }
  }

  /** The links of the rows b appended after a's. */
  function NewLinks(a: RunState, b: RunState): set<string>
    requires |a.rows| <= |b.rows|
  {
    LinksOf(b.rows[|a.rows|..])
  }

  /** One item adds its link exactly when it is wanted and not yet seen. */
  lemma ApplyTakes(st: RunState, region: string, item: Item, detail: string -> string, today: string)
    ensures var next := Apply(st, Judge(st.seen, region, item, detail, today));
            |st.rows| <= |next.rows|
            && NewLinks(st, next) == (if Wanted(region, item) then {LinkOf(item).value} else {}) - st.seen
  {
    var v := Judge(st.seen, region, item, detail, today);
    var next := Apply(st, v);
    AcceptedIffWanted(st.seen, region, item, detail, today);
    if v.Accepted? {
      assert next.rows[|st.rows|..] == [v.row];
      assert [v.row][0] == v.row;
      assert LinksOf([v.row]) == {v.row.link};
    } else {
      assert next.rows[|st.rows|..] == [];
    }
  }

  /** New links compose: what two steps take is what either takes from the union of their candidates. */
  lemma NewLinksCompose(a: RunState, b: RunState, c: RunState, head: set<string>, tail: set<string>)
    requires Grows(a, b) && Grows(b, c)
    requires NewLinks(a, b) == head - a.seen
    requires NewLinks(b, c) == tail - b.seen
    ensures NewLinks(a, c) == (head + tail) - a.seen
  {
    var na, nb := |a.rows|, |b.rows|;
    assert c.rows[na..] == b.rows[na..] + c.rows[nb..] by {
      assert c.rows == c.rows[..nb] + c.rows[nb..];
      assert c.rows[..nb] == b.rows;
    }
    LinksOfAppend(b.rows[na..], c.rows[nb..]);
  }

  /** Every row appended after position `from` is open, in the given region, and links into the portal. */
  ghost predicate NewRowsFor(st: RunState, from: nat, region: string) {
    forall i :: from <= i < |st.rows| ==>
      st.rows[i].status == Config.OpenStatus && st.rows[i].region == region
      && StartsWith(st.rows[i].link, Config.PortalBase)
  }

  /**
   * The item loop of one query. An item without an href raises inside the
   * loop; the query's `except` clause then abandons the remaining items.
   * The links appended are exactly the candidates not seen before the loop.
   */
  function RunItems(st: RunState, region: string, items: seq<Item>, detail: string -> string, today: string): (r: RunState)
    ensures Grows(st, r)
    ensures NewRowsFor(r, |st.rows|, region)
    ensures NewLinks(st, r) == Candidates(region, items) - st.seen
    decreases |items|
  {
    if items == [] then
      GrowsRefl(st);
      assert st.rows[|st.rows|..] == [];
      st
    else
      var v := Judge(st.seen, region, items[0], detail, today);
      if v.MissingHref? then
        GrowsRefl(st);
        assert st.rows[|st.rows|..] == [];
        CandidatesStopped(region, items);
        st
      else
        var next := Apply(st, v);
        ApplyGrows(st, region, items[0], detail, today);
        var r := RunItems(next, region, items[1..], detail, today);
        GrowsTrans(st, next, r);
        ApplyTakes(st, region, items[0], detail, today);
        CandidatesCons(region, items);
        NewLinksCompose(st, next, r, if Wanted(region, items[0]) then {LinkOf(items[0]).value} else {},
                        Candidates(region, items[1..]));
        assert forall i :: |st.rows| <= i < |next.rows| ==> r.rows[i] == next.rows[i] by {
          forall i | |st.rows| <= i < |next.rows|
            ensures r.rows[i] == next.rows[i]
          {
            assert r.rows[i] == r.rows[..|next.rows|][i];
          }
        }
        r
  }

  /** One query: a result page is processed item by item; an empty-list page or a failed page changes nothing. */
  function RunQuery(st: RunState, q: Query, page: Page, detail: string -> string, today: string): (r: RunState)
    ensures Grows(st, r)
    ensures NewRowsFor(r, |st.rows|, q.region)
    ensures NewLinks(st, r) == PageCandidates(q, page) - st.seen
    ensures !page.Results? ==> r == st
  {
    match page
    case Results(items) => RunItems(st, q.region, items, detail, today)
    case _ =>
      GrowsRefl(st);
      assert st.rows[|st.rows|..] == [];
      st
  }

  /** Every row appended after position `from` is open, in the region of one of the queries, and links into the portal. */
  ghost predicate NewRowsFrom(st: RunState, from: nat, qs: seq<Query>) {
    forall i :: from <= i < |st.rows| ==>
      st.rows[i].status == Config.OpenStatus && (exists q :: q in qs && q.region == st.rows[i].region)
      && StartsWith(st.rows[i].link, Config.PortalBase)
  }

  /**
   * The outer loops over the query plan; `search` gives each query's result
   * page. The links appended are exactly the plan's candidates not seen
   * before the loops.
   */
  function RunQueries(st: RunState, qs: seq<Query>, search: Query -> Page, detail: string -> string, today: string): (r: RunState)
    ensures Grows(st, r)
    ensures NewRowsFrom(r, |st.rows|, qs)
    ensures NewLinks(st, r) == PlanCandidates(qs, search) - st.seen
    decreases |qs|
  {
    if qs == [] then
      GrowsRefl(st);
      assert st.rows[|st.rows|..] == [];
      st
    else
      var next := RunQuery(st, qs[0], search(qs[0]), detail, today);
      var r := RunQueries(next, qs[1..], search, detail, today);
      GrowsTrans(st, next, r);
      PlanCandidatesCons(qs, search);
      NewLinksCompose(st, next, r, PageCandidates(qs[0], search(qs[0])), PlanCandidates(qs[1..], search));
      forall i | |st.rows| <= i < |r.rows|
        ensures r.rows[i].status == Config.OpenStatus && (exists q :: q in qs && q.region == r.rows[i].region)
                && StartsWith(r.rows[i].link, Config.PortalBase)
      {
        if i < |next.rows| {
          assert r.rows[i] == r.rows[..|next.rows|][i];
          assert qs[0] in qs;
        } else {
          var q :| q in qs[1..] && q.region == r.rows[i].region;
          assert q in qs;
        }
      }
      r
  }

  // ---------------------------------------------------------------------------
  // The whole run
  // ---------------------------------------------------------------------------

  /**
   * `links_salvos`: the values of column H from the header row down
   * (`col_values(8)[LINHA_CABECALHO - 1:]`, so the header cell itself is
   * included), or the empty set when reading the column failed.
   */
  function SeedLinks(column: Option<seq<string>>): (seed: set<string>)
    ensures column.None? ==> seed == {}
    ensures column.Some? && Config.HeaderRow - 1 <= |column.value| ==>
              forall i :: Config.HeaderRow - 1 <= i < |column.value| <==> 0 <= i < |column.value| && column.value[i] in seed
    ensures forall x :: x in seed <==>
              column.Some? && exists i :: Config.HeaderRow - 1 <= i < |column.value| && column.value[i] == x
  {
    match column
    case None => {}
    case Some(values) =>
      var from := Config.HeaderRow - 1;
      if from <= |values| then set i | from <= i < |values| :: values[i] else {}
  }

  /** Column H of a sheet whose header cell is `header` and whose data rows are `rows`. */
  function LinkColumnOf(header: string, rows: seq<Row>): seq<string> {
    [header] + seq(|rows|, i requires 0 <= i < |rows| => Cells(rows[i])[Config.LinkColumn - 1])
  }

  /** Reading column H back recovers exactly the links of the appended rows, plus the header cell. */
  lemma SeedReadsBackLinks(header: string, rows: seq<Row>)
    ensures SeedLinks(Some(LinkColumnOf(header, rows))) == {header} + LinksOf(rows)
  {
    var col := LinkColumnOf(header, rows);
    var seed := SeedLinks(Some(col));
    forall x | x in {header} + LinksOf(rows)
      ensures x in seed
    {
      if x != header {
        var i :| 0 <= i < |rows| && rows[i].link == x;
        assert col[i + 1] == x;
      }
    }
    assert col[0] == header;
  }

  /**
   * `main` reads column H only after clearing every row below the header, so
   * the column holds just its header cell and the seed is that cell alone.
   */
  lemma SeedAfterClear(header: string)
    ensures SeedLinks(Some([header])) == {header}
  {
    assert [header][0] == header;
  }

  function Start(seed: set<string>): RunState {
    RunState(seed, 0, [], [])
  }

  /** The search loop of `main`, from the seeded seen set over the configured plan. */
  function Run(column: Option<seq<string>>, search: Query -> Page, detail: string -> string, today: string): RunState {
    RunQueries(Start(SeedLinks(column)), Queries(Config.Keywords, Config.Regions), search, detail, today)
  }

  /**
   * What a whole run guarantees: the links appended are exactly those of the
   * items some query's result page offers past every gate, less the seed; no
   * link is appended twice, the final seen set is the seed plus the appended
   * links, the counter equals the number of appended rows, and every row is
   * open, in a configured region, and links into the portal.
   */
  lemma RunOutcome(column: Option<seq<string>>, search: Query -> Page, detail: string -> string, today: string)
    ensures var r := Run(column, search, detail, today);
            && LinksOf(r.rows) == PlanCandidates(Queries(Config.Keywords, Config.Regions), search) - SeedLinks(column)
            && r.count == |r.rows|
            && r.seen == SeedLinks(column) + LinksOf(r.rows)
            && (forall i :: 0 <= i < |r.rows| ==> r.rows[i].link !in SeedLinks(column))
            && (forall i, j :: 0 <= i < j < |r.rows| ==> r.rows[i].link != r.rows[j].link)
            && (forall i :: 0 <= i < |r.rows| ==>
                  r.rows[i].status == Config.OpenStatus && r.rows[i].region in Config.Regions
                  && StartsWith(r.rows[i].link, Config.PortalBase))
  {
    var qs := Queries(Config.Keywords, Config.Regions);
    var r := Run(column, search, detail, today);
    assert r.rows[0..] == r.rows;
    forall i | 0 <= i < |r.rows|
      ensures r.rows[i].region in Config.Regions
    {
      var q :| q in qs && q.region == r.rows[i].region;
      QueriesCover(Config.Keywords, Config.Regions, q.keyword, q.region);
    }
  }

  /**
   * Once a listing is accepted, meeting it again (in the same query or a
   * later one) is a duplicate: it adds no row and opens no detail page.
   */
  lemma AcceptedThenDuplicate(st: RunState, region: string, region2: string, item: Item, detail: string -> string, today: string)
    requires Judge(st.seen, region, item, detail, today).Accepted?
    ensures var next := Apply(st, Judge(st.seen, region, item, detail, today));
            Judge(next.seen, region2, item, detail, today).Duplicate?
  {
  }

  /** The same listing twice in one result page yields one row and one detail visit. */
  lemma RepeatedItemOnce(st: RunState, region: string, item: Item, detail: string -> string, today: string)
    requires Judge(st.seen, region, item, detail, today).Accepted?
    ensures var r := RunItems(st, region, [item, item], detail, today);
            |r.rows| == |st.rows| + 1 && |r.visits| == |st.visits| + 1 && r.count == st.count + 1
  {
    var v := Judge(st.seen, region, item, detail, today);
    var next := Apply(st, v);
    AcceptedThenDuplicate(st, region, region, item, detail, today);
    assert [item, item][1..] == [item];
    assert RunItems(next, region, [item], detail, today) == RunItems(next, region, [], detail, today);
  }

  /**
   * An item stopped by the presence, href, duplicate or exclusion gate leaves
   * the whole state alone: no row, no counter step, no seen link and no
   * detail visit.
   */
  lemma SkippedItemNoEffect(st: RunState, region: string, item: Item, detail: string -> string, today: string)
    requires !Visits(Judge(st.seen, region, item, detail, today))
    ensures RunItems(st, region, [item], detail, today) == st
  {
    assert [item][1..] == [];
  }

  /**
   * The range cleared before the run (`A{LINHA_CABECALHO + 1}:I{row_count}`),
   * or None when the sheet has no row below the header.
   */
  function ClearRange(rowCount: nat): (r: Option<CellRange>)
    ensures r.Some? <==> rowCount > Config.HeaderRow
    ensures r.Some? ==> r.value.SingleLetterColumns()
    ensures r.Some? ==> forall col: nat :: !r.value.Covers(col, Config.HeaderRow)
    ensures r.Some? ==> forall col: nat, row: nat :: col < Config.RowWidth && Config.HeaderRow < row <= rowCount ==> r.value.Covers(col, row)
    ensures r.Some? ==> forall col: nat, row: nat :: r.value.Covers(col, row) ==> col < Config.RowWidth && row <= rowCount
  {
    if rowCount > Config.HeaderRow
    then Some(CellRange(0, Config.HeaderRow + 1, Config.RowWidth - 1, rowCount))
    else None
  }

  /** The cleared range reads `A2:I<row_count>`. */
  lemma ClearRangeText(rowCount: nat)
    requires rowCount > Config.HeaderRow
    ensures Render(ClearRange(rowCount).value) == "A2:I" + Decimal(rowCount)
  {
    assert Decimal(2) == "2";
  }
}

=== FILE: normalizer.dfy ===
/**
 * The text normaliser of processador.py: canonical object phrases
 * (`encontrar_frase_especifica`) and organisation-name cleanup
 * (`limpar_nome_orgao`).
 */
module Normalizer {

  import opened Common
  import opened Text
  import opened Accents
  import Config

  // ---------------------------------------------------------------------------
  // Object phrases
  // ---------------------------------------------------------------------------

  /**
   * `strip_accents(text.lower())`: lower-cased, then reduced to ASCII. The
   * result holds no capital; ASCII text is only lower-cased; and text whose
   * lower-cased characters are ASCII or precomposed Latin-1 letters keeps its
   * length, each character becoming the base of its small letter.
   */
  function Normalize(text: string): (r: string)
    ensures forall i :: 0 <= i < |r| ==> IsAscii(r[i])
    ensures forall i :: 0 <= i < |r| ==> !IsUpper(r[i])
    ensures (forall i :: 0 <= i < |text| ==> IsAscii(text[i])) ==> r == Lower(text)
    ensures (forall i :: 0 <= i < |text| ==> IsAscii(LowerChar(text[i])) || LatinBase(LowerChar(text[i])).Some?) ==>
              |r| == |text| && forall i :: 0 <= i < |text| ==> [r[i]] == Folded(LowerChar(text[i]))
  {
    LowerThenStrip(text);
    StripAccents(Lower(text))
  }

  /** The facts `Normalize` states, about the lower-cased text it strips. */
  lemma LowerThenStrip(text: string)
    ensures forall i :: 0 <= i < |StripAccents(Lower(text))| ==> !IsUpper(StripAccents(Lower(text))[i])
    ensures (forall i :: 0 <= i < |text| ==> IsAscii(text[i])) ==> StripAccents(Lower(text)) == Lower(text)
    ensures (forall i :: 0 <= i < |text| ==> IsAscii(LowerChar(text[i])) || LatinBase(LowerChar(text[i])).Some?) ==>
              |StripAccents(Lower(text))| == |text|
              && forall i :: 0 <= i < |text| ==> [StripAccents(Lower(text))[i]] == Folded(LowerChar(text[i]))
  {
    var low := Lower(text);
    StripAccentsNoUpper(low);
    if forall i :: 0 <= i < |text| ==> IsAscii(text[i]) {
      assert forall i :: 0 <= i < |low| ==> IsAscii(low[i]);
    }
    if forall i :: 0 <= i < |text| ==> IsAscii(LowerChar(text[i])) || LatinBase(LowerChar(text[i])).Some? {
      StripAccentsLatin(low);
    }
  }

  /**
   * `encontrar_frase_especifica`: the title-cased form of the first phrase,
   * in list order, that occurs in the normalised text; None when none occurs.
   */
  function FindPhrase(text: string, phrases: seq<string>): (r: Option<string>)
    ensures r.None? <==> forall k :: 0 <= k < |phrases| ==> !Contains(Normalize(text), phrases[k])
    ensures r.Some? ==>
              exists k :: 0 <= k < |phrases| && r.value == Title(phrases[k])
                          && Contains(Normalize(text), phrases[k])
                          && forall j :: 0 <= j < k ==> !Contains(Normalize(text), phrases[j])
  {
    var norm := Normalize(text);
    match FirstWhere(phrases, p => Contains(norm, p))
    case None => None
    case Some(k) => Some(Title(phrases[k]))
  }

  /** Phrase matching is a priority order: the earlier of two occurring phrases always wins, whatever their lengths. */
  lemma FirstListedWins(text: string, p: string, q: string)
    requires Contains(Normalize(text), p)
    ensures FindPhrase(text, [p, q]) == Some(Title(p))
    ensures Contains(Normalize(text), q) ==> FindPhrase(text, [q, p]) == Some(Title(q))
  {
  }

  /** The first listed phrase wins as soon as it occurs. */
  lemma FindPhraseHead(text: string, phrases: seq<string>)
    requires phrases != [] && Contains(Normalize(text), phrases[0])
    ensures FindPhrase(text, phrases) == Some(Title(phrases[0]))
  {
  }

  /**
   * The object cell the pass writes back: the found phrase when it is
   * non-empty (Python's truth test), the original text otherwise. No
   * configured phrase is empty, so a found phrase is always written.
   */
  function ObjectCell(text: string): (r: string)
    ensures FindPhrase(text, Config.Phrases).None? ==> r == text
    ensures FindPhrase(text, Config.Phrases).Some? ==> r == FindPhrase(text, Config.Phrases).value
    ensures r != text ==> exists k :: 0 <= k < |Config.Phrases| && r == Title(Config.Phrases[k])
  {
    ConfiguredPhrasesNonEmpty();
    match FindPhrase(text, Config.Phrases)
    case Some(phrase) => if phrase != "" then phrase else text
    case None => text
  }

  /** Every configured phrase has at least one character, so its title-cased form is truthy. */
  lemma ConfiguredPhrasesNonEmpty()
    ensures forall k :: 0 <= k < |Config.Phrases| ==> Title(Config.Phrases[k]) != ""
  {
    forall k | 0 <= k < |Config.Phrases|
      ensures |Config.Phrases[k]| > 0
    {
    }
  }

  /** Lower-case ASCII text: what the configured phrases are written in. */
  predicate IsLowerAscii(s: string) {
    forall i :: 0 <= i < |s| ==> IsAscii(s[i]) && !IsUpper(s[i])
  }

  /** No phrase occurs inside a phrase listed after it. */
  predicate NoEarlierInLater(phrases: seq<string>) {
    forall j, i :: 0 <= j < i < |phrases| ==> !Contains(phrases[i], phrases[j])
  }

  lemma NormalizeTitleOfLowerAscii(p: string)
    requires IsLowerAscii(p)
    ensures Normalize(Title(p)) == p
  {
    LowerOfTitle(p);
    assert Lower(p) == p;
  }

  /**
   * Re-applying the phrase search to its own result changes nothing, provided
   * the phrases are lower-case ASCII and none occurs in a later one.
   */
  lemma FindPhraseFixedPoint(text: string, phrases: seq<string>)
    requires forall k :: 0 <= k < |phrases| ==> IsLowerAscii(phrases[k])
    requires NoEarlierInLater(phrases)
    requires FindPhrase(text, phrases).Some?
    ensures FindPhrase(FindPhrase(text, phrases).value, phrases) == FindPhrase(text, phrases)
  {
    var norm := Normalize(text);
    var k := FirstWhere(phrases, p => Contains(norm, p)).value;
    var t := Title(phrases[k]);
    NormalizeTitleOfLowerAscii(phrases[k]);
    assert OccursAt(phrases[k], phrases[k], 0);
    var k' := FirstWhere(phrases, p => Contains(Normalize(t), p));
    assert k'.Some?;
    assert k'.value == k;
  }

  /** Re-mapping an already mapped object cell leaves it alone. */
  lemma ObjectCellIdempotent(text: string)
    ensures ObjectCell(ObjectCell(text)) == ObjectCell(text)
  {
    ConfiguredPhrasesWellFormed();
    match FindPhrase(text, Config.Phrases)
    case None =>
    case Some(phrase) =>
      if phrase != "" {
        FindPhraseFixedPoint(text, Config.Phrases);
      }
  }

  // ---------------------------------------------------------------------------
  // Organisation names
  // ---------------------------------------------------------------------------

  /** Index of the first configured prefix the lower-cased name starts with. */
  function OrgPrefixIndex(name: string): Option<nat> {
    FirstWhere(Config.OrgPrefixes, p => StartsWith(Lower(name), p))
  }

  /**
   * `limpar_nome_orgao` on a string: cut the first listed prefix the name
   * starts with (ignoring case), strip, and title-case; a name with no such
   * prefix is only title-cased. Only a prefix at the very start counts.
   */
  function CleanOrg(name: string): (r: string)
    ensures forall k :: 0 <= k < |Config.OrgPrefixes| && StartsWith(Lower(name), Config.OrgPrefixes[k])
                        && (forall j :: 0 <= j < k ==> !StartsWith(Lower(name), Config.OrgPrefixes[j])) ==>
              r == Title(Strip(name[|Config.OrgPrefixes[k]|..]))
    ensures (forall k :: 0 <= k < |Config.OrgPrefixes| ==> !StartsWith(Lower(name), Config.OrgPrefixes[k])) ==>
              r == Title(name)
  {
    match OrgPrefixIndex(name)
    case None => Title(name)
    case Some(k) =>
      var prefix := Config.OrgPrefixes[k];
      Title(Strip(name[|prefix|..]))
  }

  /** A spreadsheet value as Python sees it: a string, or something else (a number, None). */
  datatype Value = Str(s: string) | NonStr(repr: string)

  /** `limpar_nome_orgao`: a value that is not a string comes back as it was. */
  function CleanOrgValue(v: Value): (r: Value)
    ensures v.NonStr? ==> r == v
    ensures v.Str? ==> r.Str? && r.s == CleanOrg(v.s)
  {
    match v
    case NonStr(_) => v
    case Str(s) => Str(CleanOrg(s))
  }

  /** A cleaned name is a fixed point unless it still starts with a listed prefix. */
  lemma CleanOrgFixedPoint(name: string)
    requires forall k :: 0 <= k < |Config.OrgPrefixes| ==> !StartsWith(Lower(CleanOrg(name)), Config.OrgPrefixes[k])
    ensures CleanOrg(CleanOrg(name)) == CleanOrg(name)
  {
    match OrgPrefixIndex(name)
    case None => TitleIdempotent(name);
    case Some(k) => TitleIdempotent(Strip(name[|Config.OrgPrefixes[k]|..]));
  }

  // ---------------------------------------------------------------------------
  // The configured lists and worked examples
  // ---------------------------------------------------------------------------

  lemma NotContainedPositional(s: string, p: string, k: nat)
    requires 0 < k < |p| <= |s|
    requires forall i :: 0 <= i <= |s| - |p| ==> s[i] != p[0] || s[i + k] != p[k]
    ensures !Contains(s, p)
  {
    forall i | 0 <= i <= |s| && OccursAt(s, p, i)
      ensures false
    {
      OccursAtChar(s, p, i, 0);
      OccursAtChar(s, p, i, k);
    }
  }

  /**
   * Phrase j of the configured list does not occur in any phrase i listed
   * after it. A phrase longer than a later one cannot occur in it; for the
   * others, either a character of phrase j is missing from phrase i, or the
   * first character and one other character of phrase j never line up in it.
   */
  lemma NotInLaterPhrase0(i: nat)
    requires 0 < i < |Config.Phrases|
    ensures !Contains(Config.Phrases[i], Config.Phrases[0])
  {
    var P := Config.Phrases;
    if i == 1 {
      NotContainedPositional(P[1], P[0], 11);
    } else if i == 3 {
      NotContainsByMissingChar(P[3], P[0], 0);
    } else if i == 4 {
      NotContainsByMissingChar(P[4], P[0], 0);
    } else if i == 5 {
      NotContainsByMissingChar(P[5], P[0], 13);
    } else if i == 6 {
      NotContainsByMissingChar(P[6], P[0], 15);
    } else if i == 7 {
      NotContainsByMissingChar(P[7], P[0], 2);
    } else {
      assert |P[i]| < |P[0]|;
    }
  }

  lemma NotInLaterPhrase1(i: nat)
    requires 1 < i < |Config.Phrases|
    ensures !Contains(Config.Phrases[i], Config.Phrases[1])
  {
    var P := Config.Phrases;
    if i == 4 {
      NotContainsByMissingChar(P[4], P[1], 0);
    } else if i == 5 {
      NotContainsByMissingChar(P[5], P[1], 16);
    } else if i == 6 {
      NotContainsByMissingChar(P[6], P[1], 11);
    } else {
      assert |P[i]| < |P[1]|;
    }
  }

  lemma NotInLaterPhrase2(i: nat)
    requires 2 < i < |Config.Phrases|
    ensures !Contains(Config.Phrases[i], Config.Phrases[2])
  {
    var P := Config.Phrases;
    if i == 3 {
      NotContainedPositional(P[3], P[2], 10);
    } else if i == 4 {
      NotContainsByMissingChar(P[4], P[2], 12);
    } else if i == 5 {
      NotContainsByMissingChar(P[5], P[2], 3);
    } else if i == 6 {
      NotContainsByMissingChar(P[6], P[2], 0);
    } else if i == 7 {
      NotContainsByMissingChar(P[7], P[2], 0);
    } else {
      assert |P[i]| < |P[2]|;
    }
  }

  lemma NotInLaterPhrase3(i: nat)
    requires 3 < i < |Config.Phrases|
    ensures !Contains(Config.Phrases[i], Config.Phrases[3])
  {
    var P := Config.Phrases;
    if i == 4 {
      NotContainsByMissingChar(P[4], P[3], 10);
    } else if i == 5 {
      NotContainsByMissingChar(P[5], P[3], 3);
    } else if i == 6 {
      NotContainsByMissingChar(P[6], P[3], 0);
    } else {
      assert |P[i]| < |P[3]|;
    }
  }

  lemma NotInLaterPhrase4(i: nat)
    requires 4 < i < |Config.Phrases|
    ensures !Contains(Config.Phrases[i], Config.Phrases[4])
  {
    var P := Config.Phrases;
    if i == 5 {
      NotContainsByMissingChar(P[5], P[4], 3);
    } else if i == 6 {
      NotContainsByMissingChar(P[6], P[4], 0);
    } else {
      assert |P[i]| < |P[4]|;
    }
  }

  lemma NotInLaterPhrase5(i: nat)
    requires 5 < i < |Config.Phrases|
    ensures !Contains(Config.Phrases[i], Config.Phrases[5])
  {
    var P := Config.Phrases;
    if i == 6 {
      NotContainsByMissingChar(P[6], P[5], 0);
    } else {
      assert |P[i]| < |P[5]|;
    }
  }

  lemma NotInLaterPhrase8(i: nat)
    requires 8 < i < |Config.Phrases|
    ensures !Contains(Config.Phrases[i], Config.Phrases[8])
  {
    var P := Config.Phrases;
    if i == 9 {
      NotContainsByMissingChar(P[9], P[8], 0);
    } else if i == 10 {
      NotContainsByMissingChar(P[10], P[8], 1);
    } else {
      NotContainsByMissingChar(P[11], P[8], 1);
    }
  }

  lemma LeadingPhrasesLowerAscii()
    ensures forall k :: 0 <= k < 6 ==> IsLowerAscii(Config.Phrases[k])
  {
  }

  lemma TrailingPhrasesLowerAscii()
    ensures forall k :: 6 <= k < |Config.Phrases| ==> IsLowerAscii(Config.Phrases[k])
  {
  }

  /** The configured phrases are written in lower-case ASCII. */
  lemma ConfiguredPhrasesLowerAscii()
    ensures forall k :: 0 <= k < |Config.Phrases| ==> IsLowerAscii(Config.Phrases[k])
  {
    LeadingPhrasesLowerAscii();
    TrailingPhrasesLowerAscii();
  }

  /** No configured phrase occurs in a phrase listed after it. */
  lemma ConfiguredPhrasesUnshadowed()
    ensures NoEarlierInLater(Config.Phrases)
  {
    var P := Config.Phrases;
    forall j, i | 0 <= j < i < |P|
      ensures !Contains(P[i], P[j])
    {
      if j == 0 {
        NotInLaterPhrase0(i);
      } else if j == 1 {
        NotInLaterPhrase1(i);
      } else if j == 2 {
        NotInLaterPhrase2(i);
      } else if j == 3 {
        NotInLaterPhrase3(i);
      } else if j == 4 {
        NotInLaterPhrase4(i);
      } else if j == 5 {
        NotInLaterPhrase5(i);
      } else if j == 8 {
        NotInLaterPhrase8(i);
      } else {
        assert |P[i]| < |P[j]|;
      }
    }
  }

  /** The configured phrases are lower-case ASCII and none occurs in a later one. */
  lemma ConfiguredPhrasesWellFormed()
    ensures forall k :: 0 <= k < |Config.Phrases| ==> IsLowerAscii(Config.Phrases[k])
    ensures NoEarlierInLater(Config.Phrases)
  {
    ConfiguredPhrasesLowerAscii();
    ConfiguredPhrasesUnshadowed();
  }

  /** "servico de vigilancia armada" contains both the armed phrase and the bare one, at the same index. */
  lemma ArmedSurveillanceOccurrences()
    ensures Contains("servico de vigilancia armada", "vigilancia armada")
    ensures Contains("servico de vigilancia armada", "vigilancia")
  {
    var norm := "servico de vigilancia armada";
    assert norm[11..28] == "vigilancia armada";
    assert norm[11..21] == "vigilancia";
    assert OccursAt(norm, "vigilancia armada", 11);
    assert OccursAt(norm, "vigilancia", 11);
  }

  lemma ArmedSurveillanceTitles()
    ensures Title("vigilancia armada") == "Vigilancia Armada"
    ensures Title("vigilancia") == "Vigilancia"
  {
    TitlePointwise("vigilancia armada", "Vigilancia Armada");
    TitlePointwise("vigilancia", "Vigilancia");
  }

  /** A text whose normal form is "servico de vigilancia armada" maps to "Vigilancia Armada": the first listed phrase wins. */
  lemma ArmedSurveillanceChoice(text: string)
    requires Normalize(text) == "servico de vigilancia armada"
    ensures FindPhrase(text, Config.Phrases) == Some("Vigilancia Armada")
    ensures FindPhrase(text, ["vigilancia", "vigilancia armada"]) == Some("Vigilancia")
  {
    ArmedSurveillanceOccurrences();
    ArmedSurveillanceTitles();
    assert Config.Phrases[0] == "vigilancia armada";
    FindPhraseHead(text, Config.Phrases);
    FindPhraseHead(text, ["vigilancia", "vigilancia armada"]);
  }

  lemma ArmedSurveillanceLower()
    ensures Lower("Serviço de Vigilância Armada") == "serviço de vigilância armada"
  {
    LowerPointwise("Serviço de Vigilância Armada", "serviço de vigilância armada");
  }

  lemma ArmedSurveillanceStripped()
    ensures StripAccents("serviço de vigilância armada") == "servico de vigilancia armada"
  {
    StripAccentsPointwise("serviço de vigilância armada", "servico de vigilancia armada");
  }

  lemma ArmedSurveillanceNormalized()
    ensures Normalize("Serviço de Vigilância Armada") == "servico de vigilancia armada"
  {
    ArmedSurveillanceLower();
    ArmedSurveillanceStripped();
  }

  /** "Serviço de Vigilância Armada" becomes "Vigilancia Armada": lower-cased, stripped of accents, first listed phrase. */
  lemma ArmedSurveillanceExample()
    ensures ObjectCell("Serviço de Vigilância Armada") == "Vigilancia Armada"
  {
    ArmedSurveillanceNormalized();
    ArmedSurveillanceChoice("Serviço de Vigilância Armada");
  }

  lemma CityHallPrefix()
    ensures StartsWith(Lower("Prefeitura Municipal de Santos"), Config.OrgPrefixes[0])
    ensures "Prefeitura Municipal de Santos"[|Config.OrgPrefixes[0]|..] == " Santos"
  {
    var name := "Prefeitura Municipal de Santos";
    LowerPointwise(name, "prefeitura municipal de santos");
    assert Lower(name)[..23] == Config.OrgPrefixes[0];
  }

  lemma SantosTail()
    ensures Strip(" Santos") == "Santos"
    ensures Title("Santos") == "Santos"
  {
    assert " " + "Santos" == " Santos";
    StripOneLeadingSpace("Santos");
    TitlePointwise("Santos", "Santos");
  }

  /** The first listed prefix is cut and the rest stripped. */
  lemma CityHallExample()
    ensures CleanOrg("Prefeitura Municipal de Santos") == "Santos"
  {
    CityHallPrefix();
    SantosTail();
  }

  lemma FundacaoUnlisted()
    ensures forall k :: 0 <= k < |Config.OrgPrefixes| ==> !StartsWith(Lower("Fundação Municipal de Santos"), Config.OrgPrefixes[k])
  {
    var low := "fundação municipal de santos";
    LowerPointwise("Fundação Municipal de Santos", low);
    forall k | 0 <= k < |Config.OrgPrefixes|
      ensures !StartsWith(low, Config.OrgPrefixes[k])
    {
      assert low[0] != Config.OrgPrefixes[k][0] || low[4] != Config.OrgPrefixes[k][4];
    }
  }

  lemma FundacaoTitle()
    ensures Title("Fundação Municipal de Santos") == "Fundação Municipal De Santos"
  {
    TitlePointwise("Fundação Municipal de Santos", "Fundação Municipal De Santos");
  }

  /** "Fundação" is not a listed prefix: the name is only title-cased. */
  lemma UnlistedPrefixExample()
    ensures CleanOrg("Fundação Municipal de Santos") == "Fundação Municipal De Santos"
  {
    FundacaoUnlisted();
    FundacaoTitle();
  }

  lemma DoublePrefixLower()
    ensures Lower("Prefeitura Municipal de Municipio de Santos") == "prefeitura municipal de municipio de santos"
  {
    LowerPointwise("Prefeitura Municipal de Municipio de Santos", "prefeitura municipal de municipio de santos");
  }

  lemma DoublePrefixFirstCut()
    ensures StartsWith("prefeitura municipal de municipio de santos", Config.OrgPrefixes[0])
  {
    assert "prefeitura municipal de municipio de santos"[..23] == "prefeitura municipal de";
  }

  lemma DoublePrefixFirstRest()
    ensures "Prefeitura Municipal de Municipio de Santos"[|Config.OrgPrefixes[0]|..] == " Municipio de Santos"
  {
  }

  lemma DoublePrefixFirstStrip()
    ensures Strip(" Municipio de Santos") == "Municipio de Santos"
  {
    assert " " + "Municipio de Santos" == " Municipio de Santos";
    StripOneLeadingSpace("Municipio de Santos");
  }

  lemma DoublePrefixFirstTitle()
    ensures Title("Municipio de Santos") == "Municipio De Santos"
  {
    TitlePointwise("Municipio de Santos", "Municipio De Santos");
  }

  lemma DoublePrefixSecondCut()
    ensures !StartsWith(Lower("Municipio De Santos"), Config.OrgPrefixes[0])
    ensures StartsWith(Lower("Municipio De Santos"), Config.OrgPrefixes[1])
    ensures "Municipio De Santos"[|Config.OrgPrefixes[1]|..] == " Santos"
  {
    var name := "Municipio De Santos";
    LowerPointwise(name, "municipio de santos");
    assert Lower(name)[0] != Config.OrgPrefixes[0][0];
    assert Lower(name)[..12] == Config.OrgPrefixes[1];
  }

  /** Cleaning twice can strip a second prefix, so the cleanup is not idempotent in general. */
  lemma CleanOrgNotIdempotent()
    ensures CleanOrg("Prefeitura Municipal de Municipio de Santos") == "Municipio De Santos"
    ensures CleanOrg("Municipio De Santos") == "Santos"
  {
    DoublePrefixLower();
    DoublePrefixFirstCut();
    DoublePrefixFirstRest();
    DoublePrefixFirstStrip();
    DoublePrefixFirstTitle();
    DoublePrefixSecondCut();
    SantosTail();
  }
}

=== FILE: planner.dfy ===
/**
 * Query enumeration in app.py: the two nested `for` loops that pair every
 * search keyword with every region, keyword-major.
 */
module Planner {

  import Config

  datatype Query = Query(keyword: string, region: string)

  /** The inner loop: one keyword against every region, in region order. */
  function KeywordQueries(keyword: string, regions: seq<string>): (qs: seq<Query>)
    ensures |qs| == |regions|
    ensures forall j :: 0 <= j < |regions| ==> qs[j] == Query(keyword, regions[j])
  {
    seq(|regions|, j requires 0 <= j < |regions| => Query(keyword, regions[j]))
  }

  /** Position of the query for keyword number i and region number j, with m regions. */
  function Position(i: nat, j: nat, m: nat): nat {
    i * m + j
  }

  /**
   * The queries visited, in visiting order. The query for keyword i and
   * region j sits at position i * |regions| + j: keywords vary slowest.
   */
  function Queries(keywords: seq<string>, regions: seq<string>): (qs: seq<Query>)
    ensures |qs| == |keywords| * |regions|
    ensures forall i, j :: 0 <= i < |keywords| && 0 <= j < |regions| ==>
              Position(i, j, |regions|) < |qs| && qs[Position(i, j, |regions|)] == Query(keywords[i], regions[j])
  {
    if keywords == [] then []
    else
      var head := KeywordQueries(keywords[0], regions);
      var tail := Queries(keywords[1..], regions);
      var qs := head + tail;
      var m := |regions|;
      assert |qs| == |keywords| * m by {
        assert |keywords| * m == m + (|keywords| - 1) * m;
      }
      forall i, j | 0 <= i < |keywords| && 0 <= j < m
        ensures Position(i, j, m) < |qs| && qs[Position(i, j, m)] == Query(keywords[i], regions[j])
      {
        if i > 0 {
          assert Position(i, j, m) == m + Position(i - 1, j, m) by {
            assert i * m == m + (i - 1) * m;
          }
          assert keywords[1..][i - 1] == keywords[i];
        }
      }
      qs
  }

  /** A pair is queried exactly when its keyword and its region are both configured. */
  lemma {:induction false} QueriesCover(keywords: seq<string>, regions: seq<string>, k: string, u: string)
    ensures Query(k, u) in Queries(keywords, regions) <==> k in keywords && u in regions
  {
    if keywords != [] {
      QueriesCover(keywords[1..], regions, k, u);
      var head := KeywordQueries(keywords[0], regions);
      assert Queries(keywords, regions) == head + Queries(keywords[1..], regions);
      assert Query(k, u) in head <==> k == keywords[0] && u in regions;
      assert k in keywords <==> k == keywords[0] || k in keywords[1..];
    }
  }

  predicate Distinct<T(==)>(xs: seq<T>) {
    forall i, j :: 0 <= i < j < |xs| ==> xs[i] != xs[j]
  }

  /** With no repeated keyword or region, no query is visited twice. */
  lemma {:induction false} QueriesDistinct(keywords: seq<string>, regions: seq<string>)
    requires Distinct(keywords) && Distinct(regions)
    ensures Distinct(Queries(keywords, regions))
  {
    if keywords != [] {
      var head := KeywordQueries(keywords[0], regions);
      var tail := Queries(keywords[1..], regions);
      QueriesDistinct(keywords[1..], regions);
      forall a, b | 0 <= a < |head| && 0 <= b < |tail|
        ensures head[a] != tail[b]
      {
        QueriesCover(keywords[1..], regions, tail[b].keyword, tail[b].region);
        assert keywords[0] !in keywords[1..];
      }
      var qs := head + tail;
      forall a, b | 0 <= a < b < |qs|
        ensures qs[a] != qs[b]
      {
        if b < |head| {
        } else if a >= |head| {
          assert qs[a] == tail[a - |head|] && qs[b] == tail[b - |head|];
        } else {
          assert qs[b] == tail[b - |head|];
        }
      }
    }
  }

  lemma ConfiguredListsDistinct()
    ensures Distinct(Config.Keywords)
    ensures Distinct(Config.Regions)
  {
    var k, r := Config.Keywords, Config.Regions;
    assert forall i, j :: 0 <= i < j < |k| ==> k[i][0] != k[j][0] || k[i][2] != k[j][2];
    assert forall i, j :: 0 <= i < j < |r| ==> r[i][0] != r[j][0] || r[i][1] != r[j][1];
  }

  /** The query for keyword i and region j, read off the plan. */
  lemma QueryAt(keywords: seq<string>, regions: seq<string>, i: nat, j: nat)
    requires i < |keywords| && j < |regions|
    ensures Position(i, j, |regions|) < |Queries(keywords, regions)|
    ensures Queries(keywords, regions)[Position(i, j, |regions|)] == Query(keywords[i], regions[j])
  {
  }

  /** The configured plan: 5 keywords by 8 regions, 40 distinct queries, vigilancia/SP first and monitoramento/DF last. */
  lemma ConfiguredPlan()
    ensures |Queries(Config.Keywords, Config.Regions)| == 40
    ensures Distinct(Queries(Config.Keywords, Config.Regions))
    ensures Queries(Config.Keywords, Config.Regions)[0] == Query("vigilancia", "SP")
    ensures Queries(Config.Keywords, Config.Regions)[8] == Query("seguranca", "SP")
    ensures Queries(Config.Keywords, Config.Regions)[39] == Query("monitoramento", "DF")
  {
    var k, r := Config.Keywords, Config.Regions;
    assert |k| == 5 && |r| == 8;
    ConfiguredListsDistinct();
    QueriesDistinct(k, r);
    QueryAt(k, r, 0, 0);
    QueryAt(k, r, 1, 0);
    QueryAt(k, r, 4, 7);
    assert Position(0, 0, 8) == 0 && Position(1, 0, 8) == 8 && Position(4, 7, 8) == 39;
  }
}

=== FILE: ranges.dfy ===
/**
 * Spreadsheet ranges in A1 notation, as both scripts build them with
 * f-strings: a column letter followed by a decimal row number, twice,
 * separated by a colon (`A2:I1000`, `G2:G41`).
 */
module Ranges {

  import opened Common

  // ---------------------------------------------------------------------------
  // Decimal row numbers, as Python's `str(int)` writes them
  // ---------------------------------------------------------------------------

  predicate IsDigit(c: char) {
    '0' <= c <= '9'
  }

  function DigitChar(d: nat): (c: char)
    requires d < 10
    ensures IsDigit(c)
  {
    ('0' as int + d) as char
  }

  function DigitValue(c: char): nat
    requires IsDigit(c)
  {
    c as int - '0' as int
  }

  /** Decimal notation of n without leading zeros. */
  function Decimal(n: nat): (r: string)
    ensures |r| >= 1
    ensures forall i :: 0 <= i < |r| ==> IsDigit(r[i])
    ensures r[0] != '0' || n == 0
  {
    if n < 10 then [DigitChar(n)] else Decimal(n / 10) + [DigitChar(n % 10)]
  }

  /** The value of a non-empty string of decimal digits; None for anything else. */
  function ParseDecimal(s: string): Option<nat>
    decreases |s|
  {
    if s == [] || !IsDigit(s[|s| - 1]) then None
    else if |s| == 1 then Some(DigitValue(s[0]))
    else
      match ParseDecimal(s[..|s| - 1])
      case None => None
      case Some(v) => Some(10 * v + DigitValue(s[|s| - 1]))
  }

  /** Reading back a written row number gives the number. */
  lemma {:induction false} ParseDecimalOfDecimal(n: nat)
    ensures ParseDecimal(Decimal(n)) == Some(n)
  {
    if n >= 10 {
      ParseDecimalOfDecimal(n / 10);
      var s := Decimal(n);
      assert s[..|s| - 1] == Decimal(n / 10);
    }
  }

  // ---------------------------------------------------------------------------
  // Rectangular ranges
  // ---------------------------------------------------------------------------

  /** Columns are 0-based (A is 0); rows are the sheet's 1-based row numbers. */
  datatype CellRange = CellRange(firstCol: nat, firstRow: nat, lastCol: nat, lastRow: nat)
  {
    /** Both columns can be written with a single letter A–Z. */
    predicate SingleLetterColumns() {
      firstCol < 26 && lastCol < 26
    }

    predicate Covers(col: nat, row: nat) {
      firstCol <= col <= lastCol && firstRow <= row <= lastRow
    }
  }

  /** `chr(ord('A') + col)`. */
  function ColumnLetter(col: nat): (c: char)
    requires col < 26
    ensures 'A' <= c <= 'Z'
  {
    ('A' as int + col) as char
  }

  /** `f'{col1}{row1}:{col2}{row2}'`. */
  function Render(r: CellRange): string
    requires r.SingleLetterColumns()
  {
    [ColumnLetter(r.firstCol)] + Decimal(r.firstRow) + ":" + [ColumnLetter(r.lastCol)] + Decimal(r.lastRow)
  }

  /** One corner: a letter A–Z followed by a row number. */
  function ParseCorner(s: string): Option<(nat, nat)> {
    if |s| < 2 || !('A' <= s[0] <= 'Z') then None
    else
      match ParseDecimal(s[1..])
      case None => None
      case Some(row) => Some((s[0] as int - 'A' as int, row))
  }

  /** Index of the first colon, if any. */
  function FindColon(s: string): (r: Option<nat>)
    ensures r.Some? ==> r.value < |s| && s[r.value] == ':'
    ensures r.Some? ==> forall k :: 0 <= k < r.value ==> s[k] != ':'
    ensures r.None? ==> forall k :: 0 <= k < |s| ==> s[k] != ':'
  {
    FirstWhere(s, c => c == ':')
  }

  /** Reads an A1 range `<corner>:<corner>`. */
  function Parse(s: string): Option<CellRange> {
    match FindColon(s)
    case None => None
    case Some(k) =>
      match (ParseCorner(s[..k]), ParseCorner(s[k + 1..]))
      case (Some(a), Some(b)) => Some(CellRange(a.0, a.1, b.0, b.1))
      case _ => None
  }

  /** A rendered range reads back as the same range. */
  lemma RenderParse(r: CellRange)
    requires r.SingleLetterColumns()
    ensures Parse(Render(r)) == Some(r)
  {
    var a := [ColumnLetter(r.firstCol)] + Decimal(r.firstRow);
    var b := [ColumnLetter(r.lastCol)] + Decimal(r.lastRow);
    var s := Render(r);
    assert s == a + ":" + b;
    assert FindColon(s) == Some(|a|) by {
      assert s[|a|] == ':';
      forall k | 0 <= k < |a|
        ensures s[k] != ':'
      {
        assert s[k] == a[k];
        if k > 0 {
          assert a[k] == Decimal(r.firstRow)[k - 1];
        }
      }
    }
    assert s[..|a|] == a;
    assert s[|a| + 1..] == b;
    assert a[1..] == Decimal(r.firstRow);
    assert b[1..] == Decimal(r.lastRow);
    ParseDecimalOfDecimal(r.firstRow);
    ParseDecimalOfDecimal(r.lastRow);
  }
}

=== FILE: sheet.dfy ===
/**
 * The rewrite pass of processador.py `main`: read the whole sheet, find the
 * object and organisation columns by their header titles, map every data row
 * through the normaliser, and write each column back as one vertical range.
 *
 * A sheet is its grid of cell texts, row by row, exactly as `get_all_values`
 * returns it; the header is row `Config.HeaderRow` (1-based), data rows follow.
 * The structural part is stated for any pair of cell maps; `Process` plugs in
 * `ObjectCell` and `CleanOrg`.
 */
module Sheet {

  import opened Common
  import opened Text
  import opened Ranges
  import opened Normalizer
  import Config

  type Grid = seq<seq<string>>

  /** The rows below the header. */
  function DataRows(grid: Grid): Grid
    requires |grid| >= Config.HeaderRow
  {
    grid[Config.HeaderRow..]
  }

  /** `row.index(title)`: the first column holding title; None where Python raises ValueError. */
  function ColumnOf(header: seq<string>, title: string): (r: Option<nat>)
    ensures r.Some? ==> r.value < |header| && header[r.value] == title
    ensures r.Some? ==> forall c :: 0 <= c < r.value ==> header[c] != title
    ensures r.None? <==> title !in header
  {
    FirstWhere(header, cell => cell == title)
  }

  /** The vertical range a column of n values is written to: below the header, one cell per value. */
  function ColumnRange(col: nat, n: nat): CellRange {
    CellRange(col, Config.HeaderRow + 1, col, Config.HeaderRow + n)
  }

  /** One `worksheet.update`: the values of one column, top to bottom, and the range they go to. */
  datatype ColumnWrite = ColumnWrite(target: CellRange, values: seq<string>)

  /** How the pass ends. */
  datatype Outcome =
    | NothingToProcess              // no row below the header
    | ColumnNotFound(title: string) // a header title is missing: ValueError, nothing written
    | CellMissing(row: nat)         // a data row (1-based sheet row) too short for a column: IndexError, nothing written
    | Rewrite(objects: ColumnWrite, orgs: ColumnWrite)

  /** A data row is too short to hold both looked-up cells. */
  predicate TooShort(row: seq<string>, objectCol: nat, orgCol: nat) {
    |row| <= objectCol || |row| <= orgCol
  }

  /** One column of the data rows, each cell mapped through f: the list the loop builds for one column. */
  function MapColumn(data: Grid, col: nat, f: string -> string): (vs: seq<string>)
    requires forall k :: 0 <= k < |data| ==> col < |data[k]|
    ensures |vs| == |data|
    ensures forall k :: 0 <= k < |data| ==> vs[k] == f(data[k][col])
  {
    seq(|data|, k requires 0 <= k < |data| => f(data[k][col]))
  }

  /**
   * The loop over the data rows and the two writes, for a header holding the
   * titles at objectCol and orgCol: the first row too short for either cell
   * aborts the pass; otherwise each column is mapped and written below the
   * header.
   */
  function RewriteColumns(data: Grid, objectCol: nat, orgCol: nat, objectMap: string -> string, orgMap: string -> string): (o: Outcome)
    ensures o.CellMissing? <==> exists k :: 0 <= k < |data| && TooShort(data[k], objectCol, orgCol)
    ensures o.CellMissing? ==> exists k :: 0 <= k < |data| && TooShort(data[k], objectCol, orgCol)
                                           && o.row == Config.HeaderRow + 1 + k
                                           && forall j :: 0 <= j < k ==> !TooShort(data[j], objectCol, orgCol)
    ensures o.CellMissing? || o.Rewrite?
    ensures o.Rewrite? ==>
              && o.objects.target == ColumnRange(objectCol, |data|)
              && o.orgs.target == ColumnRange(orgCol, |data|)
              && |o.objects.values| == |data| && |o.orgs.values| == |data|
              && (forall k :: 0 <= k < |data| ==>
                    && objectCol < |data[k]| && orgCol < |data[k]|
                    && o.objects.values[k] == objectMap(data[k][objectCol])
                    && o.orgs.values[k] == orgMap(data[k][orgCol]))
  {
    match FirstWhere(data, row => TooShort(row, objectCol, orgCol))
    case Some(k) => CellMissing(Config.HeaderRow + 1 + k)
    case None =>
      Rewrite(ColumnWrite(ColumnRange(objectCol, |data|), MapColumn(data, objectCol, objectMap)),
              ColumnWrite(ColumnRange(orgCol, |data|), MapColumn(data, orgCol, orgMap)))
  }

  /** The rewrite pass of `main`, from `get_all_values` to the two `update` calls. */
  function Process(grid: Grid): (o: Outcome)
    ensures o.NothingToProcess? <==> |grid| <= Config.HeaderRow
    ensures o.ColumnNotFound? ==>
              |grid| > Config.HeaderRow
              && (o.title == Config.ObjectHeader || o.title == Config.OrgHeader)
              && o.title !in grid[Config.HeaderRow - 1]
    ensures o.ColumnNotFound? && o.title == Config.OrgHeader ==> Config.ObjectHeader in grid[Config.HeaderRow - 1]
    ensures |grid| > Config.HeaderRow
            && (Config.ObjectHeader !in grid[Config.HeaderRow - 1] || Config.OrgHeader !in grid[Config.HeaderRow - 1])
            ==> o.ColumnNotFound?
    ensures o.Rewrite? ==>
              var header := grid[Config.HeaderRow - 1];
              && o.objects.target.firstCol < |header| && header[o.objects.target.firstCol] == Config.ObjectHeader
              && (forall c :: 0 <= c < o.objects.target.firstCol ==> header[c] != Config.ObjectHeader)
              && o.orgs.target.firstCol < |header| && header[o.orgs.target.firstCol] == Config.OrgHeader
              && (forall c :: 0 <= c < o.orgs.target.firstCol ==> header[c] != Config.OrgHeader)
    ensures o.Rewrite? ==>
              && o.objects.target == ColumnRange(o.objects.target.firstCol, |grid| - Config.HeaderRow)
              && o.orgs.target == ColumnRange(o.orgs.target.firstCol, |grid| - Config.HeaderRow)
              && |o.objects.values| == |grid| - Config.HeaderRow
              && |o.orgs.values| == |grid| - Config.HeaderRow
    ensures o.Rewrite? ==>
              forall k :: 0 <= k < |grid| - Config.HeaderRow ==>
                && o.objects.target.firstCol < |grid[Config.HeaderRow + k]|
                && o.orgs.target.firstCol < |grid[Config.HeaderRow + k]|
                && o.objects.values[k] == ObjectCell(grid[Config.HeaderRow + k][o.objects.target.firstCol])
                && o.orgs.values[k] == CleanOrg(grid[Config.HeaderRow + k][o.orgs.target.firstCol])
    ensures o.CellMissing? ==>
              var header := grid[Config.HeaderRow - 1];
              && Config.ObjectHeader in header && Config.OrgHeader in header
              && Config.HeaderRow < o.row <= |grid|
              && TooShort(grid[o.row - 1], ColumnOf(header, Config.ObjectHeader).value, ColumnOf(header, Config.OrgHeader).value)
    ensures |grid| > Config.HeaderRow
            && Config.ObjectHeader in grid[Config.HeaderRow - 1] && Config.OrgHeader in grid[Config.HeaderRow - 1]
            && (forall r :: Config.HeaderRow <= r < |grid| ==>
                  !TooShort(grid[r], ColumnOf(grid[Config.HeaderRow - 1], Config.ObjectHeader).value,
                            ColumnOf(grid[Config.HeaderRow - 1], Config.OrgHeader).value))
            ==> o.Rewrite?
  {
    if |grid| <= Config.HeaderRow then NothingToProcess
    else
      var header := grid[Config.HeaderRow - 1];
      match ColumnOf(header, Config.ObjectHeader)
      case None => ColumnNotFound(Config.ObjectHeader)
      case Some(objectCol) =>
        match ColumnOf(header, Config.OrgHeader)
        case None => ColumnNotFound(Config.OrgHeader)
        case Some(orgCol) =>
          assert forall k :: 0 <= k < |grid| - Config.HeaderRow ==> DataRows(grid)[k] == grid[Config.HeaderRow + k];
          RewriteColumns(DataRows(grid), objectCol, orgCol, ObjectCell, CleanOrg)
  }

  /** With a data row and both titles present, the pass is the loop over the looked-up columns. */
  lemma ProcessRewrites(grid: Grid)
    requires |grid| > Config.HeaderRow
    requires Config.ObjectHeader in grid[Config.HeaderRow - 1] && Config.OrgHeader in grid[Config.HeaderRow - 1]
    ensures var header := grid[Config.HeaderRow - 1];
            Process(grid) == RewriteColumns(DataRows(grid),
                                            ColumnOf(header, Config.ObjectHeader).value,
                                            ColumnOf(header, Config.OrgHeader).value,
                                            ObjectCell, CleanOrg)
  {
  }

  /**
   * A sheet as `get_all_values` usually returns it: a data row, both titles
   * in the header, and no data row narrower than the header.
   */
  predicate Complete(grid: Grid) {
    && |grid| > Config.HeaderRow
    && Config.ObjectHeader in grid[Config.HeaderRow - 1]
    && Config.OrgHeader in grid[Config.HeaderRow - 1]
    && forall r :: Config.HeaderRow <= r < |grid| ==> |grid[Config.HeaderRow - 1]| <= |grid[r]|
  }

  /** A complete sheet is always rewritten, one value per data row in each column. */
  lemma CompleteRewrites(grid: Grid)
    requires Complete(grid)
    ensures Process(grid).Rewrite?
    ensures |Process(grid).objects.values| == |grid| - Config.HeaderRow
    ensures |Process(grid).orgs.values| == |grid| - Config.HeaderRow
  {
    var header := grid[Config.HeaderRow - 1];
    var oc, gc := ColumnOf(header, Config.ObjectHeader).value, ColumnOf(header, Config.OrgHeader).value;
    var data := DataRows(grid);
    forall k | 0 <= k < |data|
      ensures !TooShort(data[k], oc, gc)
    {
      assert data[k] == grid[Config.HeaderRow + k];
    }
    ProcessRewrites(grid);
  }

  /** The two looked-up columns are different: their titles differ. */
  lemma ColumnsDiffer(header: seq<string>)
    requires ColumnOf(header, Config.ObjectHeader).Some? && ColumnOf(header, Config.OrgHeader).Some?
    ensures ColumnOf(header, Config.ObjectHeader).value != ColumnOf(header, Config.OrgHeader).value
  {
    assert Config.ObjectHeader[0] != Config.OrgHeader[0];
  }

  // ---------------------------------------------------------------------------
  // Writing a column back
  // ---------------------------------------------------------------------------

  /** A write fits the grid: its range is one column below the header, one cell per value, inside every data row. */
  predicate Fits(grid: Grid, w: ColumnWrite) {
    && w.target.firstCol == w.target.lastCol
    && w.target.firstRow == Config.HeaderRow + 1
    && w.target.lastRow == Config.HeaderRow + |w.values|
    && |grid| == Config.HeaderRow + |w.values|
    && forall r :: Config.HeaderRow <= r < |grid| ==> w.target.firstCol < |grid[r]|
  }

  /**
   * `worksheet.update(values, range)`: the cells the range covers take the
   * values, top to bottom; every other cell keeps its text.
   */
  function Apply(grid: Grid, w: ColumnWrite): (g: Grid)
    requires Fits(grid, w)
    ensures |g| == |grid|
    ensures forall r :: 0 <= r < |grid| ==> |g[r]| == |grid[r]|
    ensures forall r, c :: 0 <= r < |grid| && 0 <= c < |grid[r]| ==>
              g[r][c] == (if w.target.Covers(c, r + 1) then w.values[r - Config.HeaderRow] else grid[r][c])
  {
    var col := w.target.firstCol;
    seq(|grid|, r requires 0 <= r < |grid| =>
      if r < Config.HeaderRow then grid[r] else grid[r][col := w.values[r - Config.HeaderRow]])
  }

  /** The writes of a rewrite fit the grid whose data rows they were computed from. */
  lemma RewriteColumnsFit(grid: Grid, objectCol: nat, orgCol: nat, objectMap: string -> string, orgMap: string -> string)
    requires |grid| > Config.HeaderRow
    requires RewriteColumns(DataRows(grid), objectCol, orgCol, objectMap, orgMap).Rewrite?
    ensures Fits(grid, RewriteColumns(DataRows(grid), objectCol, orgCol, objectMap, orgMap).objects)
    ensures Fits(grid, RewriteColumns(DataRows(grid), objectCol, orgCol, objectMap, orgMap).orgs)
  {
    var data := DataRows(grid);
    var o := RewriteColumns(data, objectCol, orgCol, objectMap, orgMap);
    forall r | Config.HeaderRow <= r < |grid|
      ensures objectCol < |grid[r]| && orgCol < |grid[r]|
    {
      assert grid[r] == data[r - Config.HeaderRow];
    }
  }

  /** Both writes of a rewrite fit the grid they were computed from. */
  lemma RewriteFits(grid: Grid)
    requires Process(grid).Rewrite?
    ensures Fits(grid, Process(grid).objects)
    ensures Fits(grid, Process(grid).orgs)
  {
    var header := grid[Config.HeaderRow - 1];
    ProcessRewrites(grid);
    RewriteColumnsFit(grid, ColumnOf(header, Config.ObjectHeader).value, ColumnOf(header, Config.OrgHeader).value,
                      ObjectCell, CleanOrg);
  }

  /**
   * g is grid after a pass with the given cell maps: the rows above the data
   * are unchanged, and in each data row the object cell and the organisation
   * cell are mapped while every other cell keeps its text.
   */
  predicate RowsMapped(grid: Grid, g: Grid, objectCol: nat, orgCol: nat, objectMap: string -> string, orgMap: string -> string) {
    && |g| == |grid|
    && (forall r :: 0 <= r < Config.HeaderRow && r < |grid| ==> g[r] == grid[r])
    && forall r :: Config.HeaderRow <= r < |grid| ==>
         && |g[r]| == |grid[r]|
         && objectCol < |grid[r]| && orgCol < |grid[r]|
         && g[r][objectCol] == objectMap(grid[r][objectCol])
         && g[r][orgCol] == orgMap(grid[r][orgCol])
         && forall c :: 0 <= c < |grid[r]| && c != objectCol && c != orgCol ==> g[r][c] == grid[r][c]
  }

  /** A write that fits a grid still fits it after another fitting write. */
  lemma FitsAfter(grid: Grid, first: ColumnWrite, second: ColumnWrite)
    requires Fits(grid, first) && Fits(grid, second)
    ensures Fits(Apply(grid, first), second)
  {
  }

  /** Two writes to different columns: each data row takes both values, everything else stays. */
  lemma ApplyTwo(grid: Grid, first: ColumnWrite, second: ColumnWrite)
    requires Fits(grid, first) && Fits(grid, second)
    requires first.target.firstCol != second.target.firstCol
    ensures Fits(Apply(grid, first), second)
    ensures var g := Apply(Apply(grid, first), second);
            && |g| == |grid|
            && (forall r :: 0 <= r < Config.HeaderRow && r < |grid| ==> g[r] == grid[r])
            && forall r :: Config.HeaderRow <= r < |grid| ==>
                 && |g[r]| == |grid[r]|
                 && g[r][first.target.firstCol] == first.values[r - Config.HeaderRow]
                 && g[r][second.target.firstCol] == second.values[r - Config.HeaderRow]
                 && forall c :: 0 <= c < |grid[r]| && c != first.target.firstCol && c != second.target.firstCol ==>
                      g[r][c] == grid[r][c]
  {
    FitsAfter(grid, first, second);
    var g1 := Apply(grid, first);
    var g := Apply(g1, second);
    forall r | 0 <= r < Config.HeaderRow && r < |grid|
      ensures g[r] == grid[r]
    {
      assert g1[r] == grid[r];
    }
  }

  /** Two fitting writes to the two looked-up columns, holding the mapped cells, map the rows. */
  lemma ApplyMapped(grid: Grid, first: ColumnWrite, second: ColumnWrite, objectCol: nat, orgCol: nat,
                    objectMap: string -> string, orgMap: string -> string)
    requires Fits(grid, first) && Fits(grid, second)
    requires first.target.firstCol == objectCol && second.target.firstCol == orgCol && objectCol != orgCol
    requires forall r :: Config.HeaderRow <= r < |grid| ==>
               && first.values[r - Config.HeaderRow] == objectMap(grid[r][objectCol])
               && second.values[r - Config.HeaderRow] == orgMap(grid[r][orgCol])
    ensures Fits(Apply(grid, first), second)
    ensures RowsMapped(grid, Apply(Apply(grid, first), second), objectCol, orgCol, objectMap, orgMap)
  {
    ApplyTwo(grid, first, second);
  }

  /** The values of a rewrite, read against the rows of the whole grid. */
  lemma RewriteValues(grid: Grid, objectCol: nat, orgCol: nat, objectMap: string -> string, orgMap: string -> string)
    requires |grid| > Config.HeaderRow
    requires RewriteColumns(DataRows(grid), objectCol, orgCol, objectMap, orgMap).Rewrite?
    ensures var o := RewriteColumns(DataRows(grid), objectCol, orgCol, objectMap, orgMap);
            forall r :: Config.HeaderRow <= r < |grid| ==>
              && objectCol < |grid[r]| && orgCol < |grid[r]|
              && o.objects.values[r - Config.HeaderRow] == objectMap(grid[r][objectCol])
              && o.orgs.values[r - Config.HeaderRow] == orgMap(grid[r][orgCol])
  {
    var data := DataRows(grid);
    forall r | Config.HeaderRow <= r < |grid|
      ensures grid[r] == data[r - Config.HeaderRow]
    {
    }
  }

  /** Applying both writes of a rewrite, objects first, maps the rows. */
  lemma ApplyBoth(grid: Grid, objectCol: nat, orgCol: nat, objectMap: string -> string, orgMap: string -> string)
    requires |grid| > Config.HeaderRow && objectCol != orgCol
    requires RewriteColumns(DataRows(grid), objectCol, orgCol, objectMap, orgMap).Rewrite?
    ensures var o := RewriteColumns(DataRows(grid), objectCol, orgCol, objectMap, orgMap);
            && Fits(grid, o.objects)
            && Fits(Apply(grid, o.objects), o.orgs)
            && RowsMapped(grid, Apply(Apply(grid, o.objects), o.orgs), objectCol, orgCol, objectMap, orgMap)
  {
    var o := RewriteColumns(DataRows(grid), objectCol, orgCol, objectMap, orgMap);
    RewriteColumnsFit(grid, objectCol, orgCol, objectMap, orgMap);
    RewriteValues(grid, objectCol, orgCol, objectMap, orgMap);
    ApplyMapped(grid, o.objects, o.orgs, objectCol, orgCol, objectMap, orgMap);
  }

  /** The sheet after both updates, objects first. */
  function Rewritten(grid: Grid): (g: Grid)
    requires Process(grid).Rewrite?
    ensures |g| == |grid|
  {
    RewriteFits(grid);
    var o := Process(grid);
    FitsAfter(grid, o.objects, o.orgs);
    Apply(Apply(grid, o.objects), o.orgs)
  }

  /**
   * After both updates, the header and every column other than the two
   * looked-up ones are unchanged, and each data row holds its normalised
   * object and its cleaned organisation.
   */
  lemma RewrittenCells(grid: Grid)
    requires Process(grid).Rewrite?
    ensures RowsMapped(grid, Rewritten(grid), Process(grid).objects.target.firstCol, Process(grid).orgs.target.firstCol,
                       ObjectCell, CleanOrg)
  {
    var header := grid[Config.HeaderRow - 1];
    ColumnsDiffer(header);
    ProcessRewrites(grid);
    ApplyBoth(grid, ColumnOf(header, Config.ObjectHeader).value, ColumnOf(header, Config.OrgHeader).value,
              ObjectCell, CleanOrg);
  }

  /** A second pass over mapped rows finds every cell again. */
  lemma SecondPassRewrites(grid: Grid, g: Grid, objectCol: nat, orgCol: nat, objectMap: string -> string, orgMap: string -> string)
    requires |grid| > Config.HeaderRow
    requires RowsMapped(grid, g, objectCol, orgCol, objectMap, orgMap)
    ensures RewriteColumns(DataRows(grid), objectCol, orgCol, objectMap, orgMap).Rewrite?
    ensures RewriteColumns(DataRows(g), objectCol, orgCol, objectMap, orgMap).Rewrite?
  {
    var data := DataRows(grid);
    var data' := DataRows(g);
    forall k | 0 <= k < |data'|
      ensures !TooShort(data'[k], objectCol, orgCol)
      ensures !TooShort(data[k], objectCol, orgCol)
    {
      assert data'[k] == g[Config.HeaderRow + k];
      assert data[k] == grid[Config.HeaderRow + k];
    }
  }

  /** A second pass with an idempotent object map recomputes the same object column. */
  lemma SecondPassObjects(grid: Grid, g: Grid, objectCol: nat, orgCol: nat, objectMap: string -> string, orgMap: string -> string)
    requires |grid| > Config.HeaderRow
    requires RowsMapped(grid, g, objectCol, orgCol, objectMap, orgMap)
    requires forall x :: objectMap(objectMap(x)) == objectMap(x)
    ensures RewriteColumns(DataRows(g), objectCol, orgCol, objectMap, orgMap).Rewrite?
    ensures RewriteColumns(DataRows(g), objectCol, orgCol, objectMap, orgMap).objects
            == RewriteColumns(DataRows(grid), objectCol, orgCol, objectMap, orgMap).objects
  {
    SecondPassRewrites(grid, g, objectCol, orgCol, objectMap, orgMap);
    var data := DataRows(grid);
    var data' := DataRows(g);
    var o := RewriteColumns(data, objectCol, orgCol, objectMap, orgMap);
    var o' := RewriteColumns(data', objectCol, orgCol, objectMap, orgMap);
    forall k | 0 <= k < |data|
      ensures o'.objects.values[k] == o.objects.values[k]
    {
      assert data'[k] == g[Config.HeaderRow + k];
      assert data[k] == grid[Config.HeaderRow + k];
    }
  }

  /**
   * A second pass recomputes the same organisation column when the
   * organisation map leaves every cell it produced alone.
   */
  lemma SecondPassOrgs(grid: Grid, g: Grid, objectCol: nat, orgCol: nat, objectMap: string -> string, orgMap: string -> string)
    requires |grid| > Config.HeaderRow
    requires RowsMapped(grid, g, objectCol, orgCol, objectMap, orgMap)
    requires forall r :: Config.HeaderRow <= r < |grid| ==> orgMap(g[r][orgCol]) == g[r][orgCol]
    ensures RewriteColumns(DataRows(g), objectCol, orgCol, objectMap, orgMap).Rewrite?
    ensures RewriteColumns(DataRows(g), objectCol, orgCol, objectMap, orgMap).orgs
            == RewriteColumns(DataRows(grid), objectCol, orgCol, objectMap, orgMap).orgs
  {
    SecondPassRewrites(grid, g, objectCol, orgCol, objectMap, orgMap);
    var data := DataRows(grid);
    var data' := DataRows(g);
    var o := RewriteColumns(data, objectCol, orgCol, objectMap, orgMap);
    var o' := RewriteColumns(data', objectCol, orgCol, objectMap, orgMap);
    forall k | 0 <= k < |data|
      ensures o'.orgs.values[k] == o.orgs.values[k]
    {
      assert data'[k] == g[Config.HeaderRow + k];
      assert data[k] == grid[Config.HeaderRow + k];
    }
  }

  /** The output of a pass keeps the header, so a second pass looks up the same columns. */
  lemma RewrittenHeader(grid: Grid)
    requires Process(grid).Rewrite?
    ensures Rewritten(grid)[Config.HeaderRow - 1] == grid[Config.HeaderRow - 1]
    ensures Process(Rewritten(grid)) == RewriteColumns(DataRows(Rewritten(grid)),
                                                       Process(grid).objects.target.firstCol,
                                                       Process(grid).orgs.target.firstCol,
                                                       ObjectCell, CleanOrg)
  {
    ProcessRewrites(grid);
    RewrittenCells(grid);
    ProcessRewrites(Rewritten(grid));
  }

  /**
   * Running the pass again on its own output rewrites the object column with
   * the values it already holds: the object mapping settles after one pass.
   */
  lemma ObjectColumnSettles(grid: Grid)
    requires Process(grid).Rewrite?
    ensures Process(Rewritten(grid)).Rewrite?
    ensures Process(Rewritten(grid)).objects == Process(grid).objects
  {
    var o := Process(grid);
    RewrittenCells(grid);
    RewrittenHeader(grid);
    forall x
      ensures ObjectCell(ObjectCell(x)) == ObjectCell(x)
    {
      ObjectCellIdempotent(x);
    }
    SecondPassObjects(grid, Rewritten(grid), o.objects.target.firstCol, o.orgs.target.firstCol, ObjectCell, CleanOrg);
  }

  /**
   * The organisation column settles after one pass when no cleaned name
   * starts with a listed prefix; `Normalizer.CleanOrgNotIdempotent` shows a
   * name for which it does not.
   */
  lemma OrgColumnSettles(grid: Grid)
    requires Process(grid).Rewrite?
    requires forall r, k :: Config.HeaderRow <= r < |grid| && 0 <= k < |Config.OrgPrefixes| ==>
               !StartsWith(Lower(Rewritten(grid)[r][Process(grid).orgs.target.firstCol]), Config.OrgPrefixes[k])
    ensures Process(Rewritten(grid)).Rewrite?
    ensures Process(Rewritten(grid)).orgs == Process(grid).orgs
  {
    var o := Process(grid);
    var g := Rewritten(grid);
    var gc := o.orgs.target.firstCol;
    RewrittenCells(grid);
    RewrittenHeader(grid);
    forall r | Config.HeaderRow <= r < |grid|
      ensures CleanOrg(g[r][gc]) == g[r][gc]
    {
      CleanOrgFixedPoint(grid[r][gc]);
    }
    SecondPassOrgs(grid, g, o.objects.target.firstCol, gc, ObjectCell, CleanOrg);
  }

  // ---------------------------------------------------------------------------
  // The range strings
  // ---------------------------------------------------------------------------

  /** `f'{letter}{LINHA_CABECALHO + 1}:{letter}{LINHA_CABECALHO + n}'` for a column A–Z, and it reads back. */
  lemma ColumnRangeText(col: nat, n: nat)
    requires col < 26
    ensures Render(ColumnRange(col, n)) == [ColumnLetter(col)] + "2:" + [ColumnLetter(col)] + Decimal(Config.HeaderRow + n)
    ensures Parse(Render(ColumnRange(col, n))) == Some(ColumnRange(col, n))
  {
    assert Decimal(2) == "2";
    RenderParse(ColumnRange(col, n));
  }

  /** A written range covers exactly the data cells of its column. */
  lemma ColumnRangeCovers(col: nat, n: nat, c: nat, row: nat)
    ensures ColumnRange(col, n).Covers(c, row) <==> c == col && Config.HeaderRow < row <= Config.HeaderRow + n
  {
  }
}

=== FILE: text.dfy ===
/**
 * The string primitives the two scripts rely on, with Python's semantics:
 * `str.lower`, `str.upper`, `str.title`, `str.strip`, `str.startswith`,
 * the `in` substring test and `str.rsplit(sep, 1)`.
 *
 * Case mappings cover ASCII and the Latin-1 letters (À–ÿ), which is what the
 * Portuguese text handled by the scripts uses; every other character is
 * treated as uncased and mapped to itself.
 */
module Text {

  import opened Common

  // ---------------------------------------------------------------------------
  // Characters
  // ---------------------------------------------------------------------------

  predicate IsAscii(c: char) {
    c as int < 0x80
  }

  /** Capitals with a one-character lower-case partner: A–Z and À–Þ except ×. */
  predicate IsUpper(c: char) {
    ('A' <= c <= 'Z') || (0xC0 <= c as int <= 0xDE && c as int != 0xD7)
  }

  /** Small letters with a one-character capital partner: a–z and à–þ except ÷. */
  predicate IsLower(c: char) {
    ('a' <= c <= 'z') || (0xE0 <= c as int <= 0xFE && c as int != 0xF7)
  }

  /**
   * Cased letters in Python's sense. ß, ÿ and µ are small letters whose capital
   * lies outside Latin-1; the model leaves them unchanged when upper-casing.
   * The ordinal indicators ª and º are cased small letters that are their own
   * capitals, so a letter right after them continues a word (`"1ºbpm".title()`
   * is `"1ºbpm"`).
   */
  predicate IsCased(c: char) {
    IsUpper(c) || IsLower(c) || c == 'ß' || c == 'ÿ' || c == 'µ' || c == 'ª' || c == 'º'
  }

  function LowerChar(c: char): (d: char)
    ensures !IsUpper(d)
    ensures IsCased(d) == IsCased(c)
    ensures IsAscii(d) == IsAscii(c)
    ensures !IsCased(c) ==> d == c
  {
    if IsUpper(c) then (c as int + 0x20) as char else c
  }

  function UpperChar(c: char): (d: char)
    ensures !IsLower(d)
    ensures IsCased(d) == IsCased(c)
    ensures LowerChar(d) == LowerChar(c)
    ensures !IsCased(c) ==> d == c
  {
    if IsLower(c) then (c as int - 0x20) as char else c
  }

  /**
   * Python's `str.isspace` characters, which `str.strip()` removes: the ASCII
   * controls 9–13 and 28–31, space, U+0085, U+00A0, U+1680, U+2000–U+200A,
   * U+2028, U+2029, U+202F, U+205F and U+3000.
   */
  predicate IsSpace(c: char) {
    var n := c as int;
    || n == 0x20 || 0x09 <= n <= 0x0D || 0x1C <= n <= 0x1F
    || n == 0x85 || n == 0xA0 || n == 0x1680 || 0x2000 <= n <= 0x200A
    || n == 0x2028 || n == 0x2029 || n == 0x202F || n == 0x205F || n == 0x3000
  }

  // ---------------------------------------------------------------------------
  // Case mapping of strings
  // ---------------------------------------------------------------------------

  /**
   * `str.lower`: a length-preserving, character-by-character map. No capital
   * is left; each capital becomes the small letter it is the capital of, and
   * every other character is kept.
   */
  function Lower(s: string): (r: string)
    ensures |r| == |s|
    ensures forall i :: 0 <= i < |s| ==> r[i] == LowerChar(s[i])
    ensures forall i :: 0 <= i < |r| ==> !IsUpper(r[i])
    ensures forall i :: 0 <= i < |s| && !IsUpper(s[i]) ==> r[i] == s[i]
    ensures forall i :: 0 <= i < |s| && IsUpper(s[i]) ==> IsLower(r[i]) && UpperChar(r[i]) == s[i]
  {
    seq(|s|, i requires 0 <= i < |s| => LowerChar(s[i]))
  }

  /** Lower-casing twice is lower-casing once. */
  lemma LowerIdempotent(s: string)
    ensures Lower(Lower(s)) == Lower(s)
  {
    var t := Lower(s);
    assert forall i :: 0 <= i < |t| ==> Lower(t)[i] == t[i];
  }

  /** Position i of s begins a word: it is the first character or follows an uncased one. */
  predicate StartsWord(s: string, i: nat)
    requires i < |s|
  {
    i == 0 || !IsCased(s[i - 1])
  }

  function TitleChar(s: string, i: nat): char
    requires i < |s|
  {
    if StartsWord(s, i) then UpperChar(s[i]) else LowerChar(s[i])
  }

  /**
   * `str.title`: a cased letter is capitalised when it begins a word and put in
   * lower case otherwise; uncased characters are left alone.
   */
  function Title(s: string): (r: string)
    ensures |r| == |s|
    ensures forall i :: 0 <= i < |s| ==> IsCased(r[i]) == IsCased(s[i])
    ensures forall i :: 0 <= i < |s| ==> LowerChar(r[i]) == LowerChar(s[i])
    ensures forall i :: 0 <= i < |s| && !IsCased(s[i]) ==> r[i] == s[i]
    ensures forall i :: 0 <= i < |s| && StartsWord(s, i) ==> !IsLower(r[i])
    ensures forall i :: 0 <= i < |s| && !StartsWord(s, i) ==> !IsUpper(r[i])
  {
    seq(|s|, i requires 0 <= i < |s| => TitleChar(s, i))
  }

  /**
   * CPython's own loop for `str.title`: it carries a "previous character was
   * cased" flag, title-cases after an uncased character and lower-cases after
   * a cased one.
   */
  function TitleScan(s: string, previousCased: bool): (r: string)
    decreases |s|
  {
    if s == [] then []
    else
      var c := s[0];
      [if previousCased then LowerChar(c) else UpperChar(c)] + TitleScan(s[1..], IsCased(c))
  }

  /** The scanning loop and the positional definition of `Title` agree on every suffix. */
  lemma {:induction false} TitleScanSuffix(s: string, k: nat)
    requires k <= |s|
    ensures TitleScan(s[k..], k > 0 && IsCased(s[k - 1])) == Title(s)[k..]
    decreases |s| - k
  {
    if k < |s| {
      TitleScanSuffix(s, k + 1);
      assert s[k..][1..] == s[k + 1..];
      assert Title(s)[k..] == [Title(s)[k]] + Title(s)[k + 1..];
    }
  }

  lemma TitleMatchesScan(s: string)
    ensures TitleScan(s, false) == Title(s)
  {
    TitleScanSuffix(s, 0);
  }

  /** Title-casing is idempotent, so `Title(Title(s)) == Title(s)`. */
  lemma TitleIdempotent(s: string)
    ensures Title(Title(s)) == Title(s)
  {
    var t := Title(s);
    forall i | 0 <= i < |s|
      ensures Title(t)[i] == t[i]
    {
      assert StartsWord(t, i) == StartsWord(s, i);
    }
  }

  /** Lower-casing read off character by character. */
  lemma LowerPointwise(s: string, t: string)
    requires |s| == |t| && forall i :: 0 <= i < |s| ==> LowerChar(s[i]) == t[i]
    ensures Lower(s) == t
  {
  }

  /** Title-casing read off position by position. */
  lemma TitlePointwise(s: string, t: string)
    requires |s| == |t| && forall i :: 0 <= i < |s| ==> TitleChar(s, i) == t[i]
    ensures Title(s) == t
  {
  }

  /** A letter right after an ordinal indicator continues the word: `"1ºbpm".title()` is `"1ºbpm"`. */
  lemma OrdinalContinuesWord()
    ensures Title("1ºbpm") == "1ºbpm"
    ensures Title("1 bpm") == "1 Bpm"
  {
    TitlePointwise("1ºbpm", "1ºbpm");
    TitlePointwise("1 bpm", "1 Bpm");
  }

  /** Lower-casing forgets any earlier title-casing. */
  lemma LowerOfTitle(s: string)
    ensures Lower(Title(s)) == Lower(s)
  {
  }

  // ---------------------------------------------------------------------------
  // Whitespace stripping
  // ---------------------------------------------------------------------------

  /** First index at or after i that is not whitespace (or |s|). */
  function SkipSpaces(s: string, i: nat): (r: nat)
    requires i <= |s|
    ensures i <= r <= |s|
    ensures forall k :: i <= k < r ==> IsSpace(s[k])
    ensures r < |s| ==> !IsSpace(s[r])
    decreases |s| - i
  {
    if i < |s| && IsSpace(s[i]) then SkipSpaces(s, i + 1) else i
  }

  /** One past the last index before j (and at or after lo) that is not whitespace (or lo). */
  function SkipSpacesBack(s: string, lo: nat, j: nat): (r: nat)
    requires lo <= j <= |s|
    ensures lo <= r <= j
    ensures forall k :: r <= k < j ==> IsSpace(s[k])
    ensures r > lo ==> !IsSpace(s[r - 1])
    decreases j
  {
    if j > lo && IsSpace(s[j - 1]) then SkipSpacesBack(s, lo, j - 1) else j
  }

  /**
   * `str.strip()`: removes leading and trailing whitespace. The result is the
   * slice of s between the first and the last non-whitespace character.
   */
  function Strip(s: string): (r: string)
    ensures r == [] || (!IsSpace(r[0]) && !IsSpace(r[|r| - 1]))
    ensures exists lo, hi :: 0 <= lo <= hi <= |s| && r == s[lo..hi]
                             && (forall k :: 0 <= k < lo ==> IsSpace(s[k]))
                             && (forall k :: hi <= k < |s| ==> IsSpace(s[k]))
  {
    var lo := SkipSpaces(s, 0);
    var hi := SkipSpacesBack(s, lo, |s|);
    assert hi > lo ==> s[lo..hi][0] == s[lo];
    s[lo..hi]
  }

  /** Stripping removes a single leading blank in front of already stripped text. */
  lemma StripOneLeadingSpace(s: string)
    requires s != [] && !IsSpace(s[0]) && !IsSpace(s[|s| - 1])
    ensures Strip(" " + s) == s
  {
    var t := " " + s;
    assert SkipSpaces(t, 1) == 1;
    assert SkipSpacesBack(t, 1, |t|) == |t|;
    assert t[1..] == s;
  }

  // ---------------------------------------------------------------------------
  // Substrings
  // ---------------------------------------------------------------------------

  /** `s.startswith(p)`. */
  predicate StartsWith(s: string, p: string) {
    |p| <= |s| && s[..|p|] == p
  }

  /** p occurs in s beginning at index i. */
  predicate OccursAt(s: string, p: string, i: nat) {
    i + |p| <= |s| && s[i..i + |p|] == p
  }

  /** Python's `p in s` for strings. */
  predicate Contains(s: string, p: string) {
    exists i | 0 <= i <= |s| :: OccursAt(s, p, i)
  }

  lemma OccursAtChar(s: string, p: string, i: nat, k: nat)
    requires OccursAt(s, p, i) && k < |p|
    ensures s[i + k] == p[k]
  {
    assert s[i..i + |p|][k] == s[i + k];
  }

  /** A character of p that never appears in s rules out every occurrence. */
  lemma NotContainsByMissingChar(s: string, p: string, k: nat)
    requires k < |p| && p[k] !in s
    ensures !Contains(s, p)
  {
    forall i | 0 <= i <= |s| && OccursAt(s, p, i)
      ensures false
    {
      OccursAtChar(s, p, i, k);
    }
  }

  /** Every occurrence in s[..m] is an occurrence in s, at the same index. */
  lemma OccursAtPrefix(s: string, p: string, m: nat, i: nat)
    requires m <= |s|
    ensures OccursAt(s[..m], p, i) <==> i + |p| <= m && OccursAt(s, p, i)
  {
    if i + |p| <= m {
      assert s[..m][i..i + |p|] == s[i..i + |p|];
    }
  }

  /** An occurrence inside the suffix s[d..] is an occurrence in s shifted by d. */
  lemma OccursAtSuffix(s: string, p: string, d: nat, i: nat)
    requires d <= |s|
    ensures OccursAt(s[d..], p, i) <==> OccursAt(s, p, d + i)
  {
    if d + i + |p| <= |s| {
      assert s[d..][i..i + |p|] == s[d + i..d + i + |p|];
    }
  }

  /**
   * Start of the right-most occurrence of p in s, or None when p does not occur.
   * This is the position `str.rsplit(p, 1)` and `str.rfind(p)` use.
   */
  function FindLast(s: string, p: string): (r: Option<nat>)
    ensures r.Some? ==> OccursAt(s, p, r.value)
    ensures r.Some? ==> forall k :: r.value < k <= |s| ==> !OccursAt(s, p, k)
    ensures r.None? <==> !Contains(s, p)
    decreases |s|
  {
    if |p| > |s| then None
    else if OccursAt(s, p, |s| - |p|) then Some(|s| - |p|)
    else
      var m := |s| - 1;
      var r := FindLast(s[..m], p);
      forall k | 0 <= k <= |s|
        ensures OccursAt(s, p, k) ==> OccursAt(s[..m], p, k)
      {
        OccursAtPrefix(s, p, m, k);
      }
      if r.Some? then
        forall k | 0 <= k <= m
          ensures OccursAt(s[..m], p, k) ==> OccursAt(s, p, k)
        {
          OccursAtPrefix(s, p, m, k);
        }
        r
      else
        r
  }

  /**
   * `s.rsplit(sep, 1)`: split at the right-most occurrence of sep into two
   * parts, or return [s] when sep does not occur. Python rejects an empty
   * separator, hence the precondition.
   */
  function RSplitOnce(s: string, sep: string): (parts: seq<string>)
    requires sep != []
    ensures |parts| == 1 <==> !Contains(s, sep)
    ensures |parts| == 1 || |parts| == 2
    ensures |parts| == 1 ==> parts[0] == s
    ensures |parts| == 2 ==> parts[0] + sep + parts[1] == s
    ensures |parts| == 2 ==> !Contains(parts[1], sep)
    ensures |parts| == 2 ==> FindLast(s, sep) == Some(|parts[0]|)
    ensures |parts| == 2 ==> forall k :: |parts[0]| < k <= |s| ==> !OccursAt(s, sep, k)
  {
    match FindLast(s, sep)
    case None => [s]
    case Some(i) =>
      var right := s[i + |sep|..];
      forall k | 0 <= k <= |right| && OccursAt(right, sep, k)
        ensures false
      {
        OccursAtSuffix(s, sep, i + |sep|, k);
      }
      assert s[..i] + sep + right == s by {
        assert s[i..i + |sep|] == sep;
        assert s == s[..i] + s[i..i + |sep|] + s[i + |sep|..];
      }
      [s[..i], right]
  }
}
